=== FILE: README.md ===
# SimpleAstronomy moon-phase search, modelled in Dafny

SimpleAstronomy finds the instant of the next full moon or new moon after a given date. It works in four layers:

- The Sun's position (mean anomaly and ecliptic longitude) and the Moon's true longitude are computed from the number of days since the epoch 1990 January 0.0. That number comes from a Julian Date.
- The moon angle is the Moon's longitude less the Sun's. The visible fraction is (1 − cos angle)/2, rounded to three decimals.
- A phase predicate ("is the moon still before the phase?") reads the angle and 100 times the fraction. The full-moon predicate rotates the angle by 179.95 degrees and compares it with 180. The new-moon checks are strict thresholds at 0.01.
- A bisection over a millisecond offset in a window of 31 days 5 hours 49 minutes finds where the predicate flips. The answer is rounded to a whole minute (for an instant with no nanoseconds below the millisecond; see "## Left out"). The triangulated search repeats this from the day before, the instant and the day after, sorts the three answers, and returns the first one strictly after the instant.

The repository holds three revisions of the same code:

- The calendar-field revision (`trunk/`).
- The library revision (`SimpleAstronomyLib/`). It triangulates only the full moon, from exactly 24 hours either side. It searches the new moon once, and lets a finder choose its own window as a number of days.
- The `ZonedDateTime` revision (`src/`). It triangulates both phases from one calendar day either side, whatever its length in the zone.

The shared logic is modelled once. Anchor offsets, triangulation and the window are parameters.

The model's shape:

- Instants are `int` epoch milliseconds, and the predicate the search asks is an `int -> bool`.
- Angles and Julian Dates are exact `real`s.
- Java's truncating `%` on doubles, `Math.floor` and `Math.round` (floor of x + 0.5) are written out.
- Sine and cosine in degrees are a parameter `Trig`. No value of theirs is assumed. The position contracts rest only on their range [−1, 1]. Two lemmas state what would follow from a hypothetical value: `SampleDate1980` (a sine within 0.01 of −0.37566) and `NoCorrectionWithoutSine` (every sine zero).
- In the calendar-field and `ZonedDateTime` revisions, an instant's number of days since the epoch is a parameter `daysAt: int -> real`, because converting an instant to calendar fields in a time zone is not modelled. Their Julian Date is modelled on broken-down UTC fields.
- The library revision's Julian Date counts elapsed whole seconds from epoch milliseconds, so its finder computes the days since the epoch itself (`LibMoonPhaseFinder.ElapsedDaysSinceEpoch`).

The search engine (`PhaseSearch`) works as follows:

- The bisection is a `while` loop proved against the recursive function `Bisect`.
- Sorting the three candidates happens in place on an array.
- The scan is a `for` loop proved against `EarliestAfter`, the earliest candidate strictly after the instant.
- `_findFirstAnswerAfter` throws `IllegalStateException` when no candidate is after the instant. That branch is modelled as `None`, and it is proved unreachable: the search from the later anchor never ends up at or before the instant.

Where the code and its documentation disagree, the model follows the code:

- `getMoonAngle` is documented to lie between 0 and 360, but it adds 360 only once, and only to a negative difference. With the Moon's true longitude in [−8.6206, 368.6206) and the Sun's longitude in (0, 360], the angle lies in [−8.6206, 368.6206). `SingleWrapCanStayNegative` shows a negative result.

## Model

| member | source | states |
|---|---|---|
| JulianDate.ShiftMonth | src/main/java/com/bradsbrain/simpleastronomy/JulianDate.java:48-52 | January and February become months 13 and 14 of the previous year; other months are unchanged; the shifted month lies in 3..14 |
| JulianDate.ShiftMonthInvertible | src/main/java/com/bradsbrain/simpleastronomy/JulianDate.java:48-52 | the month shift loses nothing: the original year and month are recovered from the shifted pair |
| JulianDate.DayFraction | src/main/java/com/bradsbrain/simpleastronomy/JulianDate.java:44-46 | the time-of-day term lies in [0, 1) and times 86400 is the number of seconds since midnight |
| JulianDate.GregorianDay | src/main/java/com/bradsbrain/simpleastronomy/JulianDate.java:48-58 | the Julian Date is a whole number plus one half plus the time-of-day fraction; with MidnightIsHalfDay, NextDayAddsOne and the sample dates |
| JulianDate.JulianDay | src/main/java/com/bradsbrain/simpleastronomy/JulianDate.java:38-58 | the formula on UTC date-time fields with months 1..12; its properties are those of GregorianDay, TimeOfDayPart and NextDayAddsOne |
| JulianDate.CalendarJulianDay | trunk/src/main/java/com/bradsbrain/simpleastronomy/JulianDate.java:37-58 | the formula on calendar fields after turning the zero-based month into 1..12; CalendarRevisionAgrees equates it with JulianDay |
| JulianDate.CalendarRevisionAgrees | trunk/src/main/java/com/bradsbrain/simpleastronomy/JulianDate.java:37-58 | on calendar fields with a zero-based month plus one, the Julian Date equals the date-time revision's, whatever the milliseconds |
| JulianDate.MidnightIsHalfDay | src/main/java/com/bradsbrain/simpleastronomy/JulianDate.java:54-58 | at 00:00:00 the Julian Date is a whole number plus one half |
| JulianDate.TimeOfDayPart | src/main/java/com/bradsbrain/simpleastronomy/JulianDate.java:43-46 | sub-second parts do not change the Julian Date; it exceeds the same day's midnight value by less than one |
| JulianDate.NextDayAddsOne | src/main/java/com/bradsbrain/simpleastronomy/JulianDate.java:54-58 | for a day that is not its month's last (leap years counted), the next day's Julian Date is exactly one more |
| JulianDate.BookSampleDate | src/test/java/com/bradsbrain/simpleastronomy/JulianDateTest.java:61-72 | 1985 February 17, 06:00 UTC is exactly 2446113.75 |
| JulianDate.WikipediaSampleDate | src/test/java/com/bradsbrain/simpleastronomy/JulianDateTest.java:44-55 | 2000 March 1, 00:00 UTC is exactly 2451604.5 |
| JulianDate.EpochSampleDate | src/test/java/com/bradsbrain/simpleastronomy/JulianDateTest.java:75-86 | 1990 January 0 (1989 December 31), 00:00 UTC is exactly the epoch 2447891.5 |
| JulianDate.SecondsBetween | SimpleAstronomyLib/src/main/java/com/bradsbrain/simpleastronomy/JulianDate.java:30 | whole seconds between two instants, truncated toward zero: the millisecond distance lies in [1000s, 1000s + 1000) in either direction |
| JulianDate.DayZeroIsZero | SimpleAstronomyLib/src/main/java/com/bradsbrain/simpleastronomy/JulianDate.java:24-31 | the Julian Date of −4713-11-24T12:00Z is 0 |
| JulianDate.ElapsedJulianDay | SimpleAstronomyLib/src/main/java/com/bradsbrain/simpleastronomy/JulianDate.java:29-31 | a whole number of seconds, never negative from Julian Date 0 on; its other properties are ElapsedNextDay, ElapsedDropsMillis and ElapsedMonotone |
| JulianDate.ElapsedNextDay | SimpleAstronomyLib/src/main/java/com/bradsbrain/simpleastronomy/JulianDate.java:29-31 | from Julian Date 0 on, 86400000 ms later is exactly one more |
| JulianDate.ElapsedDropsMillis | SimpleAstronomyLib/src/main/java/com/bradsbrain/simpleastronomy/JulianDate.java:29-31 | from a whole second on, milliseconds below the next whole second are dropped |
| JulianDate.ElapsedMonotone | SimpleAstronomyLib/src/main/java/com/bradsbrain/simpleastronomy/JulianDate.java:29-31 | monotone in the instant, strictly once the instants are a whole second apart |
| JulianDate.RevisionsAgreeOnSamples | SimpleAstronomyLib/src/main/java/com/bradsbrain/simpleastronomy/JulianDate.java:29-31 | the elapsed-seconds and Gregorian revisions give the same Julian Date on the three test instants |
| BaseUtils.ExactDaysSince | src/main/java/com/bradsbrain/simpleastronomy/BaseUtils.java:25-27 | the Julian Date less the epoch; see DaysSinceEpochVanishAtEpoch and ExactDaysSinceAdvance |
| BaseUtils.CalendarExactDaysSince | trunk/SimpleAstronomyLib/src/main/java/com/bradsbrain/simpleastronomy/BaseUtils.java:27-29 | the same on calendar fields; see DaysSinceEpochVanishAtEpoch |
| BaseUtils.ExactDaysSinceAdvance | src/main/java/com/bradsbrain/simpleastronomy/BaseUtils.java:25-27 | from one day of a month to the next exactly one more day has elapsed; at 00:00 UTC a whole number of days separate the date from 1990 January 0.0 |
| BaseUtils.DaysSinceEpochVanishAtEpoch | src/main/java/com/bradsbrain/simpleastronomy/BaseUtils.java:25-27 | days since the epoch are the Julian Date less the epoch, so zero at 1990 January 0.0, in both revisions |
| BaseUtils.AdjustTo360Range | src/main/java/com/bradsbrain/simpleastronomy/BaseUtils.java:37-40 | the result lies in [0, 360) and differs from the input by a whole number of turns |
| BaseUtils.AdjustTo360RangeUnique | trunk/SimpleAstronomyLib/src/main/java/com/bradsbrain/simpleastronomy/BaseUtils.java:39-43 | any value in [0, 360) differing from the input by whole turns is the result |
| BaseUtils.AdjustTo360RangeIdentity | trunk/SimpleAstronomyLib/src/main/java/com/bradsbrain/simpleastronomy/BaseUtils.java:39-43 | the identity on [0, 360); reducing twice is reducing once |
| BaseUtils.AdjustTo360RangeSamples | SimpleAstronomyLib/src/test/java/com/bradsbrain/simpleastronomy/BaseUtilsTest.java:26-28 | 400 reduces to 40 and −50 to 310 |
| BaseUtils.JavaRemainder360 | SimpleAstronomyLib/src/main/java/com/bradsbrain/simpleastronomy/FullMoonFinder.java:35 | Java's `%` by 360 on doubles: the sign follows the dividend, its size is below 360, and it differs from the dividend by whole turns |
| BaseUtils.JavaRemainderOfNonNegative | src/main/java/com/bradsbrain/simpleastronomy/SunPosition.java:43 | on a non-negative dividend Java's remainder is the floor reduction into [0, 360) |
| BaseUtils.JavaRound | src/main/java/com/bradsbrain/simpleastronomy/BaseUtils.java:52 | `Math.round`: the integer in (x − 0.5, x + 0.5], so halves round up |
| BaseUtils.UseLessPrecision | src/main/java/com/bradsbrain/simpleastronomy/BaseUtils.java:50-53 | `Math.round(d·10^p) / 10^p`; its contract is carried by UseLessPrecisionRounds, UseLessPrecisionUnique and UseLessPrecisionIdempotent |
| BaseUtils.UseLessPrecisionRounds | trunk/SimpleAstronomyLib/src/main/java/com/bradsbrain/simpleastronomy/BaseUtils.java:53-56 | the result is a whole number of 10^−p units within (−0.5, +0.5] units of the input |
| BaseUtils.UseLessPrecisionUnique | trunk/SimpleAstronomyLib/src/main/java/com/bradsbrain/simpleastronomy/BaseUtils.java:53-56 | those two facts determine the rounded value |
| BaseUtils.UseLessPrecisionIdempotent | src/main/java/com/bradsbrain/simpleastronomy/BaseUtils.java:50-53 | rounding an already rounded value changes nothing |
| BaseUtils.ThreeDecimals | src/main/java/com/bradsbrain/simpleastronomy/BaseUtils.java:50-53 | to three decimals: a multiple of 0.001 within 0.0005 of the input, an exact tie rounding up |
| SunPosition.MeanMotionAngle | src/main/java/com/bradsbrain/simpleastronomy/SunPosition.java:41-46 | N lies in [0, 360) and differs from 360/365.242191 per day times the days by whole turns |
| SunPosition.MeanMotionIsReduced | src/main/java/com/bradsbrain/simpleastronomy/SunPosition.java:43-46 | the truncating remainder plus the sign fix-up equals the floor reduction into [0, 360) |
| SunPosition.ComputeMeanAnomaly | src/main/java/com/bradsbrain/simpleastronomy/SunPosition.java:61-64 | for N in [0, 360) the mean anomaly lies in [0, 360) and is the reduction of N + 279.403303 − 282.768422 |
| SunPosition.EquationOfCentre | src/main/java/com/bradsbrain/simpleastronomy/SunPosition.java:53 | (360/π)·0.016713·sin M is at most (360/π)·0.016713 = 1.91517… degrees either way, stated as 1.9152 |
| SunPosition.ComputeGeoEclipticLongitude | src/main/java/com/bradsbrain/simpleastronomy/SunPosition.java:52-59 | the longitude lies in (0, 360], 360 itself kept, and differs from N + Ec + 279.403303 by whole turns |
| SunPosition.PositionAt | src/main/java/com/bradsbrain/simpleastronomy/SunPosition.java:38-50 | the mean anomaly lies in [0, 360) and the ecliptic longitude in (0, 360]; the mean anomaly is computed first and read by Ec |
| SunPosition.LongitudeIsAnomalyPlusPerigee | src/main/java/com/bradsbrain/simpleastronomy/SunPosition.java:48-64 | ecliptic longitude ≡ mean anomaly + longitude of perigee + Ec modulo 360 |
| SunPosition.SampleDate1980 | src/test/java/com/bradsbrain/simpleastronomy/SunPositionTest.java:29-38 | on 1980 July 27, 00:00 UTC the mean anomaly is within 0.05 of 202.065386; given sin M within 0.01 of −0.37566, the longitude is within 0.05 of 124.114347 |
| MoonPosition.ComputeMeanLongitude | src/main/java/com/bradsbrain/simpleastronomy/MoonPosition.java:63-66 | l lies in [0, 360) and differs from 13.1763966·d + 318.351648 by whole turns |
| MoonPosition.ComputeMeanAnomaly | src/main/java/com/bradsbrain/simpleastronomy/MoonPosition.java:75-80 | Mm lies in [0, 360) and differs from l − 0.1114041·d − 36.340410 by whole turns |
| MoonPosition.MeanAnomalyMotion | SimpleAstronomyLib/src/main/java/com/bradsbrain/simpleastronomy/MoonPosition.java:59-72 | the mean anomaly moves 13.0649925 degrees a day from 282.011238 at the epoch, modulo 360 |
| MoonPosition.MoonCorrections.EvectionCorrection | src/main/java/com/bradsbrain/simpleastronomy/MoonPosition.java:153-156 | Ev = 1.2739·sin(2(l − λsun) − Mm) is at most 1.2739 either way |
| MoonPosition.MoonCorrections.AnnualEquationCorrection | src/main/java/com/bradsbrain/simpleastronomy/MoonPosition.java:163-165 | Ae = 0.1858·sin Msun is at most 0.1858 either way |
| MoonPosition.MoonCorrections.UnnamedThirdCorrection | src/main/java/com/bradsbrain/simpleastronomy/MoonPosition.java:172-174 | A3 = 0.37·sin Msun is at most 0.37 either way |
| MoonPosition.MoonCorrections.MoonCorrectedAnomaly | src/main/java/com/bradsbrain/simpleastronomy/MoonPosition.java:144-146 | M'm = Mm + Ev − Ae − A3 lies within 1.8297 degrees of Mm |
| MoonPosition.MoonCorrections.CorrectionForEquationCentre | src/main/java/com/bradsbrain/simpleastronomy/MoonPosition.java:135-137 | Ec = 6.2886·sin M'm is at most 6.2886 either way |
| MoonPosition.MoonCorrections.YetAnotherCorrectionTerm | src/main/java/com/bradsbrain/simpleastronomy/MoonPosition.java:126-128 | A4 = 0.214·sin 2M'm is at most 0.214 either way |
| MoonPosition.MoonCorrections.CorrectedLongitude | src/main/java/com/bradsbrain/simpleastronomy/MoonPosition.java:113-119 | l' = l + Ev + Ec − Ae + A4 lies within 7.9623 degrees of l |
| MoonPosition.MoonCorrections.VariationCorrection | src/main/java/com/bradsbrain/simpleastronomy/MoonPosition.java:104-106 | V = 0.6583·sin 2(l' − λsun) is at most 0.6583 either way |
| MoonPosition.TrueLongitude | src/main/java/com/bradsbrain/simpleastronomy/MoonPosition.java:38-51 | l' − V, built from the Sun's position at the same instant, lies within 8.6206 degrees of l and is not reduced: it ranges over [−8.6206, 368.6206) |
| MoonPosition.SunAnomalyTermsIgnoreLongitudes | SimpleAstronomyLib/src/main/java/com/bradsbrain/simpleastronomy/MoonPosition.java:137-150 | Ae and A3 depend only on the Sun's mean anomaly and stand in the ratio 0.1858 : 0.37 |
| MoonPosition.NoCorrectionWithoutSine | SimpleAstronomyLib/src/main/java/com/bradsbrain/simpleastronomy/MoonPosition.java:38-50 | when every sine is zero the true longitude is the mean longitude |
| FullMoonFinder.IsMoonBefore | SimpleAstronomyLib/src/main/java/com/bradsbrain/simpleastronomy/FullMoonFinder.java:34-37 | (angle + 179.95) % 360 < 180 with Java's truncating remainder; characterised by IgnoresPercent, OnReducedAngles, FullTurnInvariant and NegativeRotationIsBefore |
| FullMoonFinder.IgnoresPercent | SimpleAstronomyLib/src/main/java/com/bradsbrain/simpleastronomy/FullMoonFinder.java:34-37 | the answer does not depend on the second argument |
| FullMoonFinder.OnReducedAngles | SimpleAstronomyLib/src/main/java/com/bradsbrain/simpleastronomy/FullMoonFinder.java:29-37 | for an angle in [0, 360) the answer is true exactly when the angle is below 0.05 or at least 180.05, so it flips from false to true at 180.05 = 360 − 179.95 |
| FullMoonFinder.FullTurnInvariant | SimpleAstronomyLib/src/main/java/com/bradsbrain/simpleastronomy/FullMoonFinder.java:35 | when angle + 179.95 ≥ 0, adding 360 to the angle does not change the answer |
| FullMoonFinder.NegativeRotationIsBefore | SimpleAstronomyLib/src/main/java/com/bradsbrain/simpleastronomy/FullMoonFinder.java:35-36 | when angle + 179.95 < 0 the truncating remainder is at most 0 and the answer is true |
| NewMoonChecker.IsCorrectAngle | SimpleAstronomyLib/src/main/java/com/bradsbrain/simpleastronomy/NewMoonChecker.java:21-30 | holds exactly for angles strictly below 0.01 |
| NewMoonChecker.IsCorrectPercent | SimpleAstronomyLib/src/main/java/com/bradsbrain/simpleastronomy/NewMoonChecker.java:22-38 | holds exactly for percentages strictly below 0.01 |
| NewMoonChecker.ThresholdRejected | SimpleAstronomyLib/src/main/java/com/bradsbrain/simpleastronomy/NewMoonChecker.java:21-37 | 0.01 itself is rejected by both checks |
| NewMoonChecker.DownwardClosed | SimpleAstronomyLib/src/main/java/com/bradsbrain/simpleastronomy/NewMoonChecker.java:28-38 | a value below one that passes also passes, for both checks |
| PhaseSearch.Halve | src/main/java/com/bradsbrain/simpleastronomy/MoonPhaseFinder.java:131-142 | one iteration keeps a sub-bracket at least 250 ms narrower and about half as wide, and the instant probed is one of its ends |
| PhaseSearch.Bisect | src/main/java/com/bradsbrain/simpleastronomy/MoonPhaseFinder.java:131-142 | the loop terminates with a bracket at most 500 ms wide inside the one it started from |
| PhaseSearch.HalveKeepsBracket | src/main/java/com/bradsbrain/simpleastronomy/MoonPhaseFinder.java:131-142 | one iteration keeps the invariant: 0 ≤ start < end ≤ W, the predicate true at the end unless it is W and false at the start unless it is 0, the last probe an end at least 250 ms in |
| PhaseSearch.BisectKeepsBracket | src/main/java/com/bradsbrain/simpleastronomy/MoonPhaseFinder.java:123-142 | the invariant holds when the loop exits, and a probe was made if the loop ran |
| PhaseSearch.DatePassingBoundsSpec | src/main/java/com/bradsbrain/simpleastronomy/MoonPhaseFinder.java:122-145 | a window over 500 ms gives a result in [cal + 250, cal + W) at the start or end of a final bracket at most 500 ms wide, false at its start (unless 0), true at its end (unless W); a window of 500 ms or less gives cal |
| PhaseSearch.FindDatePassingBounds | src/main/java/com/bradsbrain/simpleastronomy/MoonPhaseFinder.java:122-145 | the while loop returns the bisection's last probe, strictly after cal for a window over 500 ms |
| PhaseSearch.HalvingsBound | src/main/java/com/bradsbrain/simpleastronomy/MoonPhaseFinder.java:131-142 | k iterations need a starting width above 500·2^(k−1) |
| PhaseSearch.AtMost23Halvings | src/main/java/com/bradsbrain/simpleastronomy/MoonPhaseFinder.java:117-142 | over W = 2,699,340,000 ms the loop runs at most 23 times |
| PhaseSearch.AlwaysBeforeEndsEarly | SimpleAstronomyLib/src/main/java/com/bradsbrain/simpleastronomy/MoonPhaseFinder.java:155-169 | a predicate always true drives the last probe to 250..500 ms after cal |
| PhaseSearch.AlwaysBeforeReturnsInput | SimpleAstronomyLib/src/main/java/com/bradsbrain/simpleastronomy/MoonPhaseFinder.java:78-90 | from a whole minute, with a predicate always true, the rounded search returns cal itself |
| PhaseSearch.RoundToMinute | src/main/java/com/bradsbrain/simpleastronomy/MoonPhaseFinder.java:103-111 | the result is a whole minute within [−29999, +30000] ms of the input; seconds below 30 round down, the others up |
| PhaseSearch.RoundToMinuteIsNearest | src/main/java/com/bradsbrain/simpleastronomy/MoonPhaseFinder.java:106-110 | no whole minute is closer to the input than the result |
| PhaseSearch.RoundToMinuteWholeMinute | src/main/java/com/bradsbrain/simpleastronomy/MoonPhaseFinder.java:106-110 | a whole minute is returned unchanged, so rounding is idempotent |
| PhaseSearch.RoundedDatePassingBoundsRange | SimpleAstronomyLib/src/main/java/com/bradsbrain/simpleastronomy/MoonPhaseFinder.java:82-90 | the rounded search gives a whole minute no earlier than cal − 29999 ms, and before cal + window + 30000 ms when the window is probed |
| PhaseSearch.FindRoundedDatePassingBounds | src/main/java/com/bradsbrain/simpleastronomy/MoonPhaseFinder.java:103-111 | the rounded search, a whole minute no earlier than cal − 29999 ms |
| PhaseSearch.EarliestAfterSpec | src/main/java/com/bradsbrain/simpleastronomy/MoonPhaseFinder.java:85-91 | no answer exactly when no candidate is after cal; otherwise the answer is the least candidate after cal |
| PhaseSearch.EarliestAfterIs | src/main/java/com/bradsbrain/simpleastronomy/MoonPhaseFinder.java:82-89 | the least candidate after cal is the answer whatever the candidates' order |
| PhaseSearch.TriangulationFindsAnswer | src/main/java/com/bradsbrain/simpleastronomy/MoonPhaseFinder.java:72-92 | with an anchor at least 30 s after cal the exception is unreachable: the answer is one of the three candidates, a whole minute strictly after cal, and the earliest such |
| PhaseSearch.CompareAndSwap | src/main/java/com/bradsbrain/simpleastronomy/MoonPhaseFinder.java:83 | one compare-and-exchange of two slots: ordered afterwards, the same two values, every other slot unchanged, a permutation |
| PhaseSearch.SortCandidates | src/main/java/com/bradsbrain/simpleastronomy/MoonPhaseFinder.java:82-83 | sorts the three candidates in place: sorted and a permutation |
| PhaseSearch.SortedScanFinds | src/main/java/com/bradsbrain/simpleastronomy/MoonPhaseFinder.java:85-88 | the first sorted candidate after cal is the earliest candidate after cal |
| PhaseSearch.SortedScanFindsNothing | src/main/java/com/bradsbrain/simpleastronomy/MoonPhaseFinder.java:85-91 | when no sorted candidate is after cal there is no answer |
| PhaseSearch.EarliestCandidateAfter | src/main/java/com/bradsbrain/simpleastronomy/MoonPhaseFinder.java:82-91 | sorting the three answers in place and scanning for the first after cal gives the earliest answer after cal, or None |
| PhaseSearch.FindFirstAnswerAfter | src/main/java/com/bradsbrain/simpleastronomy/MoonPhaseFinder.java:72-92 | three searches from cal − dayBefore, cal and cal + dayAfter, a sort and a scan return the earliest candidate after cal, or None |
| MoonPhaseFinder.GetMoonAngle | src/main/java/com/bradsbrain/simpleastronomy/MoonPhaseFinder.java:165-174 | adds 360 exactly when the difference is negative and otherwise returns it; on differences in [−360, 360) this is the reduction into [0, 360) |
| BaseUtils.SingleWrapReduces | src/main/java/com/bradsbrain/simpleastronomy/MoonPhaseFinder.java:165-174 | adding one turn to a negative angle and nothing to the others is the reduction into [0, 360) for angles in [−360, 360); `getMoonAngle` and the Sun's mean anomaly rely on it |
| MoonPhaseFinder.MoonAngleAt | src/main/java/com/bradsbrain/simpleastronomy/MoonPhaseFinder.java:165-174 | the moon angle lies in [−8.6206, 368.6206) |
| MoonPhaseFinder.SingleWrapCanStayNegative | SimpleAstronomyLib/src/main/java/com/bradsbrain/simpleastronomy/MoonPhaseFinder.java:191-200 | a difference of −361 gives −1, where the reduction would give 359 |
| MoonPhaseFinder.GetMoonVisiblePercent | src/main/java/com/bradsbrain/simpleastronomy/MoonPhaseFinder.java:153-156 | the fraction (1 − cos angle)/2 rounded to three decimals; VisiblePercentRange and PercentCheckMeansDark state its range and meaning |
| MoonPhaseFinder.VisiblePercentRange | src/main/java/com/bradsbrain/simpleastronomy/MoonPhaseFinder.java:153-156 | the visible fraction is a multiple of 0.001 in [0, 1] |
| MoonPhaseFinder.PercentCheckMeansDark | src/main/java/com/bradsbrain/simpleastronomy/MoonPhaseFinder.java:135 | the new-moon percent check on 100 times a visible fraction accepts exactly the fraction 0; the finder receives that percent here, and its use of NewMoonChecker is an assumed composition, since the new-moon finder is not part of this model |
| MoonPhaseFinder.FullMoonProbeReadsAngle | src/main/java/com/bradsbrain/simpleastronomy/MoonPhaseFinder.java:135-137 | the full-moon probe depends only on the moon angle at the probed instant |
| MoonPhaseFinder.FindFullMoonFollowing | src/main/java/com/bradsbrain/simpleastronomy/MoonPhaseFinder.java:56-58 | the triangulated search from one calendar day either side with the full-moon predicate: a whole minute strictly after cal whenever the later anchor is at least 30 s ahead |
| MoonPhaseFinder.FindNewMoonFollowing | src/main/java/com/bradsbrain/simpleastronomy/MoonPhaseFinder.java:60-62 | the same search with the new-moon predicate: a whole minute strictly after cal whenever the later anchor is at least 30 s ahead |
| LibMoonPhaseFinder.Window | SimpleAstronomyLib/src/main/java/com/bradsbrain/simpleastronomy/MoonPhaseFinder.java:149-153 | W, or the look-ahead day count times 86400000 ms; LookAheadWindow states what the search then returns |
| LibMoonPhaseFinder.ElapsedDaysSinceEpoch | SimpleAstronomyLib/src/main/java/com/bradsbrain/simpleastronomy/MoonPosition.java:39 | days since 1990 January 0.0 from the elapsed-seconds Julian Date; see ElapsedDaysSinceEpochProperties |
| LibMoonPhaseFinder.ElapsedDaysSinceEpochProperties | SimpleAstronomyLib/src/main/java/com/bradsbrain/simpleastronomy/JulianDate.java:29-31 | zero days at 1990 January 0.0, exactly one more a day later, and never decreasing |
| LibMoonPhaseFinder.LookAheadWindow | SimpleAstronomyLib/src/main/java/com/bradsbrain/simpleastronomy/MoonPhaseFinder.java:148-169 | a look-ahead of d > 0 days gives a result in [cal + 250, cal + d days); d ≤ 0 never probes and gives cal |
| LibMoonPhaseFinder.FindDatePassingBounds | SimpleAstronomyLib/src/main/java/com/bradsbrain/simpleastronomy/MoonPhaseFinder.java:148-170 | the search over the finder's window; without a look-ahead the result lies in [cal + 250, cal + W) |
| LibMoonPhaseFinder.FindFullMoonFollowing | SimpleAstronomyLib/src/main/java/com/bradsbrain/simpleastronomy/MoonPhaseFinder.java:53-73 | the earliest of the searches from cal − 24 h, cal and cal + 24 h strictly after cal; one always exists, a whole minute |
| LibMoonPhaseFinder.FindNewMoonFollowing | SimpleAstronomyLib/src/main/java/com/bradsbrain/simpleastronomy/MoonPhaseFinder.java:78-90 | one rounded search: a whole minute no earlier than cal − 29999 ms |
| LibMoonPhaseFinder.NewMoonMayNotBeAfter | SimpleAstronomyLib/src/main/java/com/bradsbrain/simpleastronomy/MoonPhaseFinder.java:78-90 | the untriangulated new-moon search can return cal itself, so it is not strictly after cal |

## Left out

- Converting an instant to calendar fields, time zones and `withZoneSameInstant` are not modelled. In the calendar-field and `ZonedDateTime` revisions an instant's days since the epoch are therefore the parameter `daysAt`, and the length of the calendar day moved by `minusDays(1)` and `plusDays(1)` is a parameter; the search needs only that the later anchor be at least 30 s ahead.
- `ZonedDateTime`'s nanoseconds below one millisecond are not modelled, since instants are whole milliseconds. `_findRoundedDatePassingBounds` subtracts only the seconds and the milli-of-second field, so the source keeps those nanoseconds of `cal` in its rounded answer. The whole-minute contracts of `RoundToMinute`, `FindRoundedDatePassingBounds` and the `Find…Following` methods therefore hold for millisecond-aligned inputs only.
- Minute rounding reads the seconds and milliseconds fields as (t / 1000) mod 60 and t mod 1000, which assumes a zone offset of whole minutes.
- `getSafeLocalCopy` and `Calendar` leniency (such as day 0 of January) are not modelled. The Julian Date takes valid UTC fields, and 1990 January 0 is written as 1989 December 31.
- Sine, cosine, `Math.toRadians` and the values of trigonometric functions are left out. The model keeps only their range [−1, 1]. The reference-ephemeris tests (2011 full moons, 'trouble dates', twenty thousand finds, the true longitude 336.967472) depend on those values and are not stated.
- IEEE double rounding is left out; arithmetic is exact over `real`. The wrong-cycle answers that triangulation works around therefore cannot arise in the model.
- `long` overflow of instants and offsets is not modelled; integers are unbounded.
- The formatting helpers, the `MoonPhase` enum, `findMoonPhaseAt`, `getRightAscension` and `getDeclination` have no logic to verify.
- Quarter-moon finders are not part of this model.
- The `NewMoonFinder`, `MoonFinder` and `LookAheadDays` implementations are not part of this model. The new-moon predicate and the look-ahead day count are parameters.
- Commented-out alternative searches are not modelled.
- PhaseSearch.SortCandidates: `Collections.sort` is a general stable sort; the model sorts exactly three instants by compare-and-swap, which gives the same order for integers.

=== FILE: base_utils.dfy ===
/**
 * Small numeric helpers shared by the position model and the phase search:
 * range reduction of angles, rounding to a number of decimals, days since an
 * epoch, Java's floating-point remainder, and the trigonometric functions,
 * which the model takes as parameters bounded in [-1, 1].
 */
module BaseUtils {
  import JulianDate

  /** True when `x` is a whole number. */
  predicate IsInteger(x: real) {
    x.Floor as real == x
  }

  /** Sine and cosine of an angle in degrees; their values are never assumed, only their range. */
  datatype Trig = Trig(sinDeg: real -> real, cosDeg: real -> real)

  ghost predicate Bounded(trig: Trig) {
    (forall x :: -1.0 <= trig.sinDeg(x) <= 1.0) &&
    (forall x :: -1.0 <= trig.cosDeg(x) <= 1.0)
  }

  /** Days elapsed between an epoch (a Julian Date) and a UTC date-time. */
  function ExactDaysSince(t: JulianDate.DateTime, epoch: real): real
    requires t.Valid()
  {
    JulianDate.JulianDay(t) - epoch
  }

  /** The same on calendar fields with a zero-based month. */
  function CalendarExactDaysSince(c: JulianDate.CalendarFields, epoch: real): real
    requires 0 <= c.month < 12
    requires 0 <= c.hourOfDay < 24 && 0 <= c.minute < 60 && 0 <= c.second < 60
  {
    JulianDate.CalendarJulianDay(c) - epoch
  }

  /** The position model's epoch 2447891.5 is 1990 January 0.0: zero days have elapsed then. */
  lemma DaysSinceEpochVanishAtEpoch()
    ensures ExactDaysSince(JulianDate.DateTime(1989, 12, 31, 0, 0, 0, 0), 2447891.5) == 0.0
    ensures CalendarExactDaysSince(JulianDate.CalendarFields(1989, 11, 31, 0, 0, 0, 0), 2447891.5) == 0.0
  {
    JulianDate.EpochSampleDate();
    JulianDate.CalendarRevisionAgrees(JulianDate.CalendarFields(1989, 11, 31, 0, 0, 0, 0));
  }

  /**
   * From one day of a month to the next exactly one more day has elapsed, and
   * at midnight UTC a whole number of days separate the date from 1990 January 0.0.
   */
  lemma ExactDaysSinceAdvance(t: JulianDate.DateTime, epoch: real)
    requires t.Valid()
    ensures t.day < JulianDate.DaysInMonth(t.year, t.month) ==>
              var u := t.(day := t.day + 1);
              u.Valid() && ExactDaysSince(u, epoch) == ExactDaysSince(t, epoch) + 1.0
    ensures t.hour == 0 && t.minute == 0 && t.second == 0 ==> IsInteger(ExactDaysSince(t, 2447891.5))
  {
    if t.day < JulianDate.DaysInMonth(t.year, t.month) {
      JulianDate.NextDayAddsOne(t);
    }
    var datePart := JulianDate.JulianDay(t) - 0.5 - JulianDate.DayFraction(t.hour, t.minute, t.second);
    assert datePart.Floor as real == datePart;
    if t.hour == 0 && t.minute == 0 && t.second == 0 {
      assert ExactDaysSince(t, 2447891.5) == (datePart.Floor - 2447891) as real;
      WholeIsInteger(datePart.Floor - 2447891);
    }
  }

  /** Reduces an angle into [0, 360) by subtracting floor(v / 360) whole turns. */
  function AdjustTo360Range(valToAdjust: real): (r: real)
    ensures 0.0 <= r < 360.0
    ensures IsInteger((r - valToAdjust) / 360.0)
  {
    var howMany := (valToAdjust / 360.0).Floor;
    var r := valToAdjust - (howMany as real) * 360.0;
    assert (r - valToAdjust) / 360.0 == (-howMany) as real;
    WholeIsInteger(-howMany);
    r
  }

  /** A value in [0, 360) that differs from `v` by whole turns is the reduced value. */
  lemma {:induction false} AdjustTo360RangeUnique(v: real, r: real)
    requires 0.0 <= r < 360.0 && IsInteger((r - v) / 360.0)
    ensures AdjustTo360Range(v) == r
  {
    var a := AdjustTo360Range(v);
    var k := ((a - v) / 360.0).Floor;
    var j := ((r - v) / 360.0).Floor;
    assert a - r == ((k - j) as real) * 360.0;
    assert -360.0 < a - r < 360.0;
    assert k == j;
  }

  /** The identity on [0, 360); hence reducing twice is reducing once. */
  lemma AdjustTo360RangeIdentity(v: real)
    ensures 0.0 <= v < 360.0 ==> AdjustTo360Range(v) == v
    ensures AdjustTo360Range(AdjustTo360Range(v)) == AdjustTo360Range(v)
  {
    assert IsInteger((v - v) / 360.0);
    if 0.0 <= v < 360.0 {
      AdjustTo360RangeUnique(v, v);
    }
    var a := AdjustTo360Range(v);
    assert IsInteger((a - a) / 360.0);
    AdjustTo360RangeUnique(a, a);
  }

  /** The unit-test values: 400 reduces to 40 and -50 to 310. */
  lemma AdjustTo360RangeSamples()
    ensures AdjustTo360Range(400.0) == 40.0
    ensures AdjustTo360Range(-50.0) == 310.0
  {
    assert (400.0 / 360.0).Floor == 1;
    assert (-50.0 / 360.0).Floor == -1;
  }

  /**
   * Java's `%` on doubles with divisor 360: the dividend minus 360 times the
   * quotient truncated toward zero, so the sign follows the dividend.
   */
  function JavaRemainder360(x: real): (r: real)
    ensures 0.0 <= x ==> 0.0 <= r < 360.0
    ensures x < 0.0 ==> -360.0 < r <= 0.0
    ensures IsInteger((x - r) / 360.0)
  {
    var q := x / 360.0;
    var truncated := if q >= 0.0 then q.Floor else -((-q).Floor);
    var r := x - (truncated as real) * 360.0;
    assert (x - r) / 360.0 == truncated as real;
    WholeIsInteger(truncated);
    r
  }

  lemma WholeIsInteger(k: int)
    ensures IsInteger(k as real)
  {
  }

  /** For a non-negative dividend, Java's remainder is the reduction into [0, 360). */
  lemma JavaRemainderOfNonNegative(x: real)
    requires 0.0 <= x
    ensures JavaRemainder360(x) == AdjustTo360Range(x)
  {
    var r := JavaRemainder360(x);
    assert (r - x) / 360.0 == -((x - r) / 360.0);
    WholeIsInteger(-((x - r) / 360.0).Floor);
    AdjustTo360RangeUnique(x, r);
  }

  /** Whole turns add up: differences that are whole multiples of 360 compose. */
  lemma WholeTurnsCompose(a: real, b: real, c: real)
    requires IsInteger((b - a) / 360.0) && IsInteger((c - b) / 360.0)
    ensures IsInteger((c - a) / 360.0)
  {
    var i, j := ((b - a) / 360.0).Floor, ((c - b) / 360.0).Floor;
    assert (c - a) / 360.0 == (i + j) as real;
    WholeIsInteger(i + j);
  }

  /**
   * One turn added to a negative angle, nothing to the others: on angles in
   * [-360, 360), and only there, this is the reduction into [0, 360).
   */
  lemma SingleWrapReduces(x: real)
    ensures -360.0 <= x < 360.0 ==> (if x < 0.0 then x + 360.0 else x) == AdjustTo360Range(x)
  {
    if -360.0 <= x < 360.0 {
      var k := if x < 0.0 then 1 else 0;
      var wrapped := if x < 0.0 then x + 360.0 else x;
      assert (wrapped - x) / 360.0 == k as real;
      WholeIsInteger(k);
      AdjustTo360RangeUnique(x, wrapped);
    }
  }

  /** A product with a non-zero factor determines the other factor. */
  lemma CancelFactor(a: real, b: real, d: real)
    requires d > 0.0 && a * d == b * d
    ensures a == b
  {
    assert (a - b) * d == 0.0;
  }

  /** 10 raised to an integer power, as `Math.pow(10, p)`. */
  function Pow10(p: int): (d: real)
    ensures d > 0.0
    decreases if p < 0 then -p else p
  {
    if p == 0 then 1.0
    else if p > 0 then 10.0 * Pow10(p - 1)
    else Pow10(p + 1) / 10.0
  }

  /** `Math.round`: the closest integer, halves rounded up. */
  function JavaRound(x: real): (n: int)
    ensures x - 0.5 < n as real <= x + 0.5
  {
    (x + 0.5).Floor
  }

  lemma DivideThenScale(a: real, b: real)
    requires b > 0.0
    ensures (a / b) * b == a
  {
  }

  /** The number of 10^-precision units that `d` rounds to. */
  function RoundedUnits(d: real, precision: int): int
  {
    JavaRound(d * Pow10(precision))
  }

  /** Rounds `d` to `precision` decimal digits, halves rounded up (`Math.round(d * 10^p) / 10^p`). */
  function UseLessPrecision(d: real, precision: int): real
  {
    (RoundedUnits(d, precision) as real) / Pow10(precision)
  }

  /**
   * The rounded value is a whole number of 10^-precision units, and it lies in
   * (d - 0.5 * 10^-precision, d + 0.5 * 10^-precision]: a tie goes up.
   */
  lemma UseLessPrecisionRounds(d: real, precision: int)
    ensures UseLessPrecision(d, precision) * Pow10(precision) == RoundedUnits(d, precision) as real
    ensures -0.5 < UseLessPrecision(d, precision) * Pow10(precision) - d * Pow10(precision) <= 0.5
  {
    DivideThenScale(RoundedUnits(d, precision) as real, Pow10(precision));
  }

  /** Those two facts determine the rounded value. */
  lemma {:induction false} UseLessPrecisionUnique(d: real, precision: int, r: real, units: int)
    requires r * Pow10(precision) == units as real
    requires -0.5 < r * Pow10(precision) - d * Pow10(precision) <= 0.5
    ensures UseLessPrecision(d, precision) == r
  {
    var u := UseLessPrecision(d, precision);
    UseLessPrecisionRounds(d, precision);
    assert -1.0 < (RoundedUnits(d, precision) - units) as real < 1.0;
    assert RoundedUnits(d, precision) == units;
    CancelFactor(u, r, Pow10(precision));
  }

  /** Rounding an already rounded value changes nothing. */
  lemma UseLessPrecisionIdempotent(d: real, precision: int)
    ensures UseLessPrecision(UseLessPrecision(d, precision), precision) == UseLessPrecision(d, precision)
  {
    var r := UseLessPrecision(d, precision);
    UseLessPrecisionRounds(d, precision);
    UseLessPrecisionUnique(r, precision, r, RoundedUnits(d, precision));
  }

  /** Three decimals: a multiple of 0.001 within half a thousandth, and an exact tie rounds up. */
  lemma ThreeDecimals(d: real)
    ensures IsInteger(UseLessPrecision(d, 3) * 1000.0)
    ensures -0.0005 < UseLessPrecision(d, 3) - d <= 0.0005
    ensures IsInteger(d * 1000.0 + 0.5) ==> UseLessPrecision(d, 3) == d + 0.0005
  {
    assert Pow10(3) == 1000.0;
    UseLessPrecisionRounds(d, 3);
    WholeIsInteger(RoundedUnits(d, 3));
    if IsInteger(d * 1000.0 + 0.5) {
      var r := d + 0.0005;
      UseLessPrecisionUnique(d, 3, r, (d * 1000.0 + 0.5).Floor);
    }
  }
}

=== FILE: full_moon_finder.dfy ===
/**
 * The full-moon predicate for the bisection: rotate the moon angle by 179.95
 * degrees, take Java's truncating remainder by 360, and compare with 180.
 */
module FullMoonFinder {
  import opened BaseUtils

  /** Slightly under 180: agrees better with observatories than a larger value. */
  const ROTATE_ANGLE: real := 179.95
  const FULL_MOON_HALF_ANGLE: real := 360.0 / 2.0

  /** `isMoonBefore(angle, unused)`: the visible percentage passed as second argument is not read. */
  function IsMoonBefore(angle: real, unused: real): bool
  {
    JavaRemainder360(angle + ROTATE_ANGLE) < FULL_MOON_HALF_ANGLE
  }

  /** The answer does not depend on the second argument. */
  lemma IgnoresPercent(angle: real, p: real, q: real)
    ensures IsMoonBefore(angle, p) == IsMoonBefore(angle, q)
  {
  }

  /**
   * On angles in [0, 360) the predicate holds exactly below 0.05 and from
   * 180.05 = 360 - 179.95 on: it flips from false to true at 180.05, a
   * twentieth of a degree past opposition.
   */
  lemma {:induction false} OnReducedAngles(angle: real, unused: real)
    requires 0.0 <= angle < 360.0
    ensures IsMoonBefore(angle, unused) <==> angle < 0.05 || angle >= 180.05
  {
    var x := angle + ROTATE_ANGLE;
    var r := JavaRemainder360(x);
    var k := ((x - r) / 360.0).Floor;
    assert x - r == (k as real) * 360.0;
    assert -180.0 < (k as real) * 360.0 < 540.0;
    assert 0 <= k <= 1;
    if k == 0 {
      assert r == x;
    } else {
      assert r == x - 360.0;
    }
  }

  /** A full turn added to a non-negative rotated angle changes nothing. */
  lemma FullTurnInvariant(angle: real, unused: real)
    requires angle + ROTATE_ANGLE >= 0.0
    ensures IsMoonBefore(angle + 360.0, unused) == IsMoonBefore(angle, unused)
  {
    var x := angle + ROTATE_ANGLE;
    JavaRemainderOfNonNegative(x);
    JavaRemainderOfNonNegative(x + 360.0);
    var a := AdjustTo360Range(x);
    assert ((x + 360.0) - a) / 360.0 == (x - a) / 360.0 + 1.0;
    WholeIsInteger(((a - x) / 360.0).Floor);
    assert (a - (x + 360.0)) / 360.0 == (a - x) / 360.0 - 1.0;
    WholeIsInteger(((a - x) / 360.0).Floor - 1);
    AdjustTo360RangeUnique(x + 360.0, a);
  }

  /** A rotated angle below zero leaves a remainder at most zero, so the answer is true. */
  lemma NegativeRotationIsBefore(angle: real, unused: real)
    requires angle + ROTATE_ANGLE < 0.0
    ensures IsMoonBefore(angle, unused)
  {
  }
}

=== FILE: julian_date.dfy ===
/**
 * Julian Date conversion, in the three forms the repository has used:
 *  - the step-wise Gregorian formula on UTC date-time fields (month 1..12),
 *  - the same formula on calendar fields whose month is zero-based,
 *  - elapsed whole seconds since the instant of Julian Date 0, divided by 86400.
 * All arithmetic is exact over `real`.
 */
module JulianDate {

  /** Broken-down UTC date and time, as read from a date-time value in UTC. */
  datatype DateTime = DateTime(year: int, month: int, day: int,
                               hour: int, minute: int, second: int, nano: int)
  {
    /** Field ranges of a real calendar date-time: the day exists in its month. */
    predicate Valid() {
      1 <= month <= 12 && 1 <= day <= DaysInMonth(year, month) &&
      0 <= hour < 24 && 0 <= minute < 60 && 0 <= second < 60 &&
      0 <= nano < 1_000_000_000
    }
  }

  /** Leap years of the proleptic Gregorian calendar. */
  predicate IsLeapYear(year: int) {
    year % 4 == 0 && (year % 100 != 0 || year % 400 == 0)
  }

  /** The number of days of a month numbered 1..12. */
  function DaysInMonth(year: int, month: int): (n: int)
    requires 1 <= month <= 12
    ensures 28 <= n <= 31
    ensures month == 2 ==> (n == 29 <==> IsLeapYear(year))
  {
    if month == 2 then (if IsLeapYear(year) then 29 else 28)
    else if month == 4 || month == 6 || month == 9 || month == 11 then 30
    else 31
  }

  /** Calendar fields with a zero-based month (January is 0). */
  datatype CalendarFields = CalendarFields(year: int, month: int, dayOfMonth: int,
                                           hourOfDay: int, minute: int, second: int, millisecond: int)

  /** Step 2: January and February count as months 13 and 14 of the previous year. */
  function ShiftMonth(year: int, month: int): (r: (int, int))
    requires 1 <= month <= 12
    ensures 3 <= r.1 <= 14
    ensures month <= 2 ==> r == (year - 1, month + 12)
    ensures month > 2 ==> r == (year, month)
  {
    if month <= 2 then (year - 1, month + 12) else (year, month)
  }

  /** The month shift loses nothing: the original year and month can be recovered. */
  function UnshiftMonth(shifted: (int, int)): (int, int)
  {
    if shifted.1 > 12 then (shifted.0 + 1, shifted.1 - 12) else shifted
  }

  lemma ShiftMonthInvertible(year: int, month: int)
    requires 1 <= month <= 12
    ensures UnshiftMonth(ShiftMonth(year, month)) == (year, month)
  {
  }

  /** The time-of-day part: hours/24 + minutes/24/60 + seconds/24/60/60; sub-second parts are not read. */
  function DayFraction(hour: int, minute: int, second: int): (f: real)
    requires 0 <= hour < 24 && 0 <= minute < 60 && 0 <= second < 60
    ensures 0.0 <= f < 1.0
    ensures f * 86400.0 == (hour * 3600 + minute * 60 + second) as real
  {
    (hour as real) / 24.0 + (minute as real) / 24.0 / 60.0 + (second as real) / 24.0 / 60.0 / 60.0
  }

  /**
   * Step 6 of the Gregorian formula, applied to a month numbered 1..12. The
   * date part is a whole number plus one half (days start at midnight, half a
   * day after the Julian Date's noon), and the time of day adds its fraction.
   */
  function GregorianDay(year: int, month: int, day: int, hour: int, minute: int, second: int): (jd: real)
    requires 1 <= month <= 12
    requires 0 <= hour < 24 && 0 <= minute < 60 && 0 <= second < 60
    ensures var datePart := jd - 0.5 - DayFraction(hour, minute, second);
            datePart.Floor as real == datePart
  {
    var (y, m) := ShiftMonth(year, month);
    var yearDays := (365.243 * (y as real)).Floor;
    var monthDays := (30.6 * ((m + 1) as real)).Floor;
    var fraction := DayFraction(hour, minute, second);
    var jd := 1720995.5 + yearDays as real + monthDays as real + day as real + fraction;
    assert jd - 0.5 - fraction == (1720995 + yearDays + monthDays + day) as real;
    jd
  }

  /** Julian Date of a UTC date-time (the revision on date-time fields). */
  function JulianDay(t: DateTime): real
    requires t.Valid()
  {
    GregorianDay(t.year, t.month, t.day, t.hour, t.minute, t.second)
  }

  /** Julian Date of calendar fields with a zero-based month (the calendar revision). */
  function CalendarJulianDay(c: CalendarFields): real
    requires 0 <= c.month < 12
    requires 0 <= c.hourOfDay < 24 && 0 <= c.minute < 60 && 0 <= c.second < 60
  {
    GregorianDay(c.year, c.month + 1, c.dayOfMonth, c.hourOfDay, c.minute, c.second)
  }

  /** The two Gregorian revisions agree once the zero-based month is shifted by one. */
  lemma CalendarRevisionAgrees(c: CalendarFields)
    requires 0 <= c.month < 12
    requires 0 <= c.hourOfDay < 24 && 0 <= c.minute < 60 && 0 <= c.second < 60
    requires 0 <= c.millisecond < 1000
    ensures var t := DateTime(c.year, c.month + 1, c.dayOfMonth, c.hourOfDay, c.minute, c.second,
                              c.millisecond * 1_000_000);
            1 <= c.dayOfMonth <= DaysInMonth(c.year, c.month + 1) ==> t.Valid() && CalendarJulianDay(c) == JulianDay(t)
  {
  }

  /** At 00:00:00 the Julian Date is a whole number plus one half. */
  lemma MidnightIsHalfDay(t: DateTime)
    requires t.Valid() && t.hour == 0 && t.minute == 0 && t.second == 0
    ensures (JulianDay(t) - 0.5).Floor as real == JulianDay(t) - 0.5
  {
    var (y, m) := ShiftMonth(t.year, t.month);
    var whole := 1720995 + (365.243 * (y as real)).Floor + (30.6 * ((m + 1) as real)).Floor + t.day;
    assert DayFraction(0, 0, 0) == 0.0;
    assert JulianDay(t) - 0.5 == whole as real;
  }

  /** The fractional part of the Julian Date above its half-day is the time of day; nanoseconds are ignored. */
  lemma TimeOfDayPart(t: DateTime, nano: int)
    requires t.Valid() && 0 <= nano < 1_000_000_000
    ensures var u := t.(nano := nano);
            u.Valid() && JulianDay(u) == JulianDay(t)
    ensures var midnight := t.(hour := 0, minute := 0, second := 0);
            midnight.Valid() &&
            0.0 <= JulianDay(t) - JulianDay(midnight) < 1.0
  {
  }

  /** Within one month, the next day is exactly one more. */
  lemma NextDayAddsOne(t: DateTime)
    requires t.Valid() && t.day < DaysInMonth(t.year, t.month)
    ensures var u := t.(day := t.day + 1);
            u.Valid() && JulianDay(u) == JulianDay(t) + 1.0
  {
  }

  /** Page 7 of the reference book: 1985 February 17, 06:00 UTC is JD 2446113.75 (test tolerance 0.05). */
  lemma BookSampleDate()
    ensures JulianDay(DateTime(1985, 2, 17, 6, 0, 0, 0)) == 2446113.75
  {
    assert ShiftMonth(1985, 2) == (1984, 14);
    assert (365.243 * 1984.0).Floor == 724642;
    assert (30.6 * 15.0).Floor == 459;
  }

  /** 2000 March 1, 00:00 UTC is JD 2451604.5 (test tolerance 0.5). */
  lemma WikipediaSampleDate()
    ensures JulianDay(DateTime(2000, 3, 1, 0, 0, 0, 0)) == 2451604.5
  {
    assert (365.243 * 2000.0).Floor == 730486;
    assert (30.6 * 4.0).Floor == 122;
  }

  /** 1990 January 0.0 (that is, 1989 December 31, 00:00 UTC) is JD 2447891.5, the epoch of the position model. */
  lemma EpochSampleDate()
    ensures JulianDay(DateTime(1989, 12, 31, 0, 0, 0, 0)) == 2447891.5
  {
    assert (365.243 * 1989.0).Floor == 726468;
    assert (30.6 * 13.0).Floor == 397;
  }

  // ---------------------------------------------------------------------------
  // Elapsed-seconds revision: instants are epoch milliseconds (1970-01-01T00:00Z is 0).

  /** -4713-11-24T12:00Z (proleptic Gregorian), the instant of Julian Date 0, in epoch milliseconds. */
  const DAY_ZERO_MILLIS: int := -210_866_760_000_000

  /** Whole seconds from `from` to `to`, truncated toward zero. */
  function SecondsBetween(from: int, to: int): (s: int)
    ensures from <= to ==> 0 <= s && s * 1000 <= to - from < s * 1000 + 1000
    ensures to <= from ==> s <= 0 && -s * 1000 <= from - to < -s * 1000 + 1000
  {
    if from <= to then (to - from) / 1000 else -((from - to) / 1000)
  }

  /**
   * Julian Date as elapsed whole seconds since Julian Date 0, divided by 24 and
   * by 3600: a whole number of seconds, never negative from Julian Date 0 on.
   */
  function ElapsedJulianDay(instant: int): (jd: real)
    ensures (jd * 86400.0).Floor as real == jd * 86400.0
    ensures DAY_ZERO_MILLIS <= instant ==> 0.0 <= jd
  {
    var seconds := SecondsBetween(DAY_ZERO_MILLIS, instant);
    var jd := (seconds as real) / 24.0 / 3600.0;
    assert jd == (seconds as real) / 86400.0;
    assert jd * 86400.0 == seconds as real;
    assert (seconds as real).Floor == seconds;
    jd
  }

  lemma DayZeroIsZero()
    ensures ElapsedJulianDay(DAY_ZERO_MILLIS) == 0.0
  {
  }

  /** From Julian Date 0 on, one day later is exactly one more. */
  lemma ElapsedNextDay(instant: int)
    requires DAY_ZERO_MILLIS <= instant
    ensures ElapsedJulianDay(instant + 86_400_000) == ElapsedJulianDay(instant) + 1.0
  {
    assert SecondsBetween(DAY_ZERO_MILLIS, instant + 86_400_000) == SecondsBetween(DAY_ZERO_MILLIS, instant) + 86400;
  }

  /** From a whole second after Julian Date 0, the milliseconds below the next second are dropped. */
  lemma ElapsedDropsMillis(instant: int, millis: int)
    requires DAY_ZERO_MILLIS <= instant
    requires 0 <= millis < 1000 && (instant - DAY_ZERO_MILLIS) % 1000 == 0
    ensures ElapsedJulianDay(instant + millis) == ElapsedJulianDay(instant)
  {
    assert SecondsBetween(DAY_ZERO_MILLIS, instant + millis) == SecondsBetween(DAY_ZERO_MILLIS, instant);
  }

  /** Monotone in the instant, and strictly so once the instants are a whole second apart. */
  lemma ElapsedMonotone(a: int, b: int)
    requires a <= b
    ensures ElapsedJulianDay(a) <= ElapsedJulianDay(b)
    ensures DAY_ZERO_MILLIS <= a && a + 1000 <= b ==> ElapsedJulianDay(a) < ElapsedJulianDay(b)
  {
    var sa, sb := SecondsBetween(DAY_ZERO_MILLIS, a), SecondsBetween(DAY_ZERO_MILLIS, b);
    assert sa <= sb;
  }

  /** The two algorithms agree on the instants the Gregorian tests use. */
  lemma RevisionsAgreeOnSamples()
    ensures ElapsedJulianDay(951_868_800_000) == JulianDay(DateTime(2000, 3, 1, 0, 0, 0, 0))
    ensures ElapsedJulianDay(477_468_000_000) == JulianDay(DateTime(1985, 2, 17, 6, 0, 0, 0))
    ensures ElapsedJulianDay(631_065_600_000) == JulianDay(DateTime(1989, 12, 31, 0, 0, 0, 0))
  {
    WikipediaSampleDate();
    BookSampleDate();
    EpochSampleDate();
  }
}

=== FILE: lib_moon_phase_finder.dfy ===
/**
 * The moon phase finder of the earlier library revision. It shares the moon
 * angle, the visible fraction and the search engine with the later revision,
 * and differs in three ways: the full moon is triangulated from exactly 24
 * hours before and after, the new moon is a single rounded search, and a
 * finder that looks ahead a number of days replaces the search window.
 * Its Julian Date counts elapsed whole seconds, so an instant's days since the
 * epoch are computed here rather than supplied.
 */
module LibMoonPhaseFinder {
  import opened PhaseSearch
  import opened MoonPhaseFinder
  import FullMoonFinder
  import opened BaseUtils
  import JulianDate
  import SunPosition

  /** 1990 January 0.0 (1989 December 31, 00:00 UTC) in epoch milliseconds. */
  const EPOCH_MILLIS: int := 631_065_600_000

  /** `exactDaysSince(cal, EPOCH)` on the elapsed-seconds Julian Date. */
  function ElapsedDaysSinceEpoch(t: int): real
  {
    JulianDate.ElapsedJulianDay(t) - SunPosition.EPOCH
  }

  /**
   * Zero days have elapsed at 1990 January 0.0, a day later is exactly one
   * more, and the count never decreases.
   */
  lemma ElapsedDaysSinceEpochProperties(t: int, u: int)
    requires JulianDate.DAY_ZERO_MILLIS <= t <= u
    ensures ElapsedDaysSinceEpoch(EPOCH_MILLIS) == 0.0
    ensures ElapsedDaysSinceEpoch(t + MILLIS_PER_DAY) == ElapsedDaysSinceEpoch(t) + 1.0
    ensures ElapsedDaysSinceEpoch(t) <= ElapsedDaysSinceEpoch(u)
  {
    JulianDate.RevisionsAgreeOnSamples();
    JulianDate.ElapsedNextDay(t);
    JulianDate.ElapsedMonotone(t, u);
  }

  /** The search window: the tuned W, or the look-ahead day count in milliseconds. */
  function Window(lookAheadDays: Option<int>): int
  {
    match lookAheadDays
    case None => WINDOW_MILLIS
    case Some(days) => days * MILLIS_PER_DAY
  }

  /**
   * With a look-ahead of `days` days the search covers [cal, cal + days): for
   * a positive count the answer lies 250 ms or more after `cal` and before
   * the end; for zero or a negative count the loop never runs and `cal`
   * itself is returned.
   */
  lemma LookAheadWindow(cal: int, isBefore: int -> bool, days: int)
    ensures days <= 0 ==> DatePassingBounds(cal, isBefore, Window(Some(days))) == cal
    ensures days > 0 ==>
      cal + 250 <= DatePassingBounds(cal, isBefore, Window(Some(days))) < cal + days * MILLIS_PER_DAY
  {
    DatePassingBoundsSpec(cal, isBefore, Window(Some(days)));
  }

  /** `findDatePassingBounds` with the window chosen by the finder. */
  method FindDatePassingBounds(cal: int, isBefore: int -> bool, lookAheadDays: Option<int>) returns (found: int)
    ensures found == DatePassingBounds(cal, isBefore, Window(lookAheadDays))
    ensures lookAheadDays.None? ==> cal + 250 <= found < cal + WINDOW_MILLIS
  {
    found := PhaseSearch.FindDatePassingBounds(cal, isBefore, Window(lookAheadDays));
  }

  /**
   * `findFullMoonFollowing`: searches from 24 hours before, the instant and
   * 24 hours after, and keeps the earliest answer strictly after `cal`; one
   * always exists.
   */
  method FindFullMoonFollowing(cal: int, trig: Trig) returns (r: Option<int>)
    ensures r == FirstAnswerAfter(cal, Probe(FullMoonFinder.IsMoonBefore, ElapsedDaysSinceEpoch, trig),
                                  MILLIS_PER_DAY, MILLIS_PER_DAY, WINDOW_MILLIS)
    ensures r.Some? && cal < r.value && r.value % MILLIS_PER_MINUTE == 0
  {
    r := FindFirstAnswerAfter(cal, Probe(FullMoonFinder.IsMoonBefore, ElapsedDaysSinceEpoch, trig),
                              MILLIS_PER_DAY, MILLIS_PER_DAY, WINDOW_MILLIS);
    TriangulationFindsAnswer(cal, Probe(FullMoonFinder.IsMoonBefore, ElapsedDaysSinceEpoch, trig),
                             MILLIS_PER_DAY, MILLIS_PER_DAY, WINDOW_MILLIS);
  }

  /**
   * `findNewMoonFollowing`: one rounded search, with the window the new-moon
   * finder chooses. The answer is a whole minute later than `cal - 30 s`, but
   * not necessarily after `cal`.
   */
  method FindNewMoonFollowing(cal: int, newMoonIsBefore: (real, real) -> bool, lookAheadDays: Option<int>,
                              trig: Trig)
    returns (r: int)
    ensures r == RoundedDatePassingBounds(cal, Probe(newMoonIsBefore, ElapsedDaysSinceEpoch, trig), Window(lookAheadDays))
    ensures r % MILLIS_PER_MINUTE == 0 && cal - 29_999 <= r
  {
    r := FindRoundedDatePassingBounds(cal, Probe(newMoonIsBefore, ElapsedDaysSinceEpoch, trig), Window(lookAheadDays));
  }

  /**
   * The untriangulated new-moon search can return its input: when the
   * predicate answers "before" at every instant, a whole-minute `cal` comes
   * back unchanged, and with a look-ahead of no days any instant comes back
   * rounded to its own minute.
   */
  lemma NewMoonMayNotBeAfter(cal: int, newMoonIsBefore: (real, real) -> bool, trig: Trig)
    requires cal % MILLIS_PER_MINUTE == 0
    requires forall a, p :: newMoonIsBefore(a, p)
    ensures RoundedDatePassingBounds(cal, Probe(newMoonIsBefore, ElapsedDaysSinceEpoch, trig), Window(None)) == cal
    ensures RoundedDatePassingBounds(cal, Probe(newMoonIsBefore, ElapsedDaysSinceEpoch, trig), Window(Some(0))) == cal
  {
    var isBefore := Probe(newMoonIsBefore, ElapsedDaysSinceEpoch, trig);
    AlwaysBeforeReturnsInput(cal, isBefore);
    LookAheadWindow(cal, isBefore, 0);
    RoundToMinuteWholeMinute(cal);
  }
}

=== FILE: moon_phase_finder.dfy ===
/**
 * The moon phase finder (ZonedDateTime revision): the moon angle and visible
 * fraction that feed a phase predicate, and the full- and new-moon searches,
 * both triangulated from the day before, the instant and the day after.
 *
 * An instant's "days since the epoch" is supplied by `daysAt`, since the
 * conversion from an instant to calendar fields in a time zone is not part of
 * this model.
 */
module MoonPhaseFinder {
  import opened BaseUtils
  import opened PhaseSearch
  import SunPosition
  import MoonPosition
  import FullMoonFinder
  import NewMoonChecker

  /**
   * `getMoonAngle`: the Moon's true longitude less the Sun's ecliptic
   * longitude, with one turn added when that difference is negative. Only
   * when the difference lies in [-360, 360) is this its reduction into [0, 360).
   */
  function GetMoonAngle(trueLongitude: real, sunLongitude: real): (angle: real)
    ensures angle == trueLongitude - sunLongitude <==> trueLongitude - sunLongitude >= 0.0
    ensures angle == trueLongitude - sunLongitude + 360.0 <==> trueLongitude - sunLongitude < 0.0
    ensures -360.0 <= trueLongitude - sunLongitude < 360.0 ==>
              angle == AdjustTo360Range(trueLongitude - sunLongitude)
  {
    var angleAge := trueLongitude - sunLongitude;
    SingleWrapReduces(angleAge);
    if angleAge < 0.0 then angleAge + 360.0 else angleAge
  }

  /** The moon angle at `daysSince` days after the epoch, from the Sun and Moon positions at that instant. */
  function MoonAngleAt(daysSince: real, trig: Trig): (angle: real)
    ensures Bounded(trig) ==> -8.6206 <= angle < 368.6206
  {
    GetMoonAngle(MoonPosition.TrueLongitude(daysSince, trig),
                 SunPosition.PositionAt(daysSince, trig).eclipticLongitude)
  }

  /**
   * One wrap is not always enough: a true longitude of -3 (a mean longitude
   * near 0 with negative corrections) against a Sun at 358 gives -1, outside
   * the documented range 0 to 360; the reduced angle would be 359.
   */
  lemma SingleWrapCanStayNegative()
    ensures GetMoonAngle(-3.0, 358.0) == -1.0
    ensures AdjustTo360Range(-3.0 - 358.0) == 359.0
  {
    assert ((-361.0) / 360.0).Floor == -2;
  }

  /** `getMoonVisiblePercent`: the illuminated fraction (1 - cos angle) / 2, rounded to three decimals. */
  function GetMoonVisiblePercent(angle: real, trig: Trig): real
  {
    UseLessPrecision(0.5 * (1.0 - trig.cosDeg(angle)), 3)
  }

  /** With cos in [-1, 1] the fraction is a multiple of 0.001 in [0, 1]. */
  lemma VisiblePercentRange(angle: real, trig: Trig)
    requires Bounded(trig)
    ensures var v := GetMoonVisiblePercent(angle, trig);
      0.0 <= v <= 1.0 && IsInteger(v * 1000.0)
  {
    var d := 0.5 * (1.0 - trig.cosDeg(angle));
    var v := GetMoonVisiblePercent(angle, trig);
    ThreeDecimals(d);
    var k := (v * 1000.0).Floor;
    assert -0.5 < (k as real) < 1000.5;
    assert 0 <= k <= 1000;
  }

  /**
   * The new-moon percent check, fed 100 times a fraction that is a multiple of
   * 0.001, accepts exactly the fraction 0.
   */
  lemma PercentCheckMeansDark(v: real)
    requires 0.0 <= v && IsInteger(v * 1000.0)
    ensures NewMoonChecker.IsCorrectPercent(100.0 * v) <==> v == 0.0
  {
    var k := (v * 1000.0).Floor;
    assert 100.0 * v == (k as real) / 10.0;
  }

  /**
   * The predicate the bisection asks at instant `t`: the phase finder's
   * `isMoonBefore` applied to the moon angle and to 100 times the visible fraction.
   */
  function Probe(isMoonBefore: (real, real) -> bool, daysAt: int -> real, trig: Trig): int -> bool
  {
    t => var angle := MoonAngleAt(daysAt(t), trig);
         isMoonBefore(angle, 100.0 * GetMoonVisiblePercent(angle, trig))
  }

  /** The full-moon probe reads only the moon angle. */
  lemma FullMoonProbeReadsAngle(daysAt: int -> real, trig: Trig, t: int)
    ensures Probe(FullMoonFinder.IsMoonBefore, daysAt, trig)(t) ==
            FullMoonFinder.IsMoonBefore(MoonAngleAt(daysAt(t), trig), 0.0)
  {
    var angle := MoonAngleAt(daysAt(t), trig);
    FullMoonFinder.IgnoresPercent(angle, 100.0 * GetMoonVisiblePercent(angle, trig), 0.0);
  }

  /**
   * `findFullMoonFollowing`: the triangulated search with the full-moon
   * predicate, anchored `dayBefore` ms before and `dayAfter` ms after `cal`
   * (`minusDays(1)` and `plusDays(1)`: one calendar day, whatever its length
   * in the zone). It always finds a whole minute strictly after `cal` as long
   * as the later anchor is at least 30 s ahead.
   */
  method FindFullMoonFollowing(cal: int, daysAt: int -> real, trig: Trig, dayBefore: int, dayAfter: int)
    returns (r: Option<int>)
    requires dayAfter >= 30_000
    ensures r == FirstAnswerAfter(cal, Probe(FullMoonFinder.IsMoonBefore, daysAt, trig),
                                  dayBefore, dayAfter, WINDOW_MILLIS)
    ensures r.Some? && cal < r.value && r.value % MILLIS_PER_MINUTE == 0
  {
    r := FindFirstAnswerAfter(cal, Probe(FullMoonFinder.IsMoonBefore, daysAt, trig),
                              dayBefore, dayAfter, WINDOW_MILLIS);
    TriangulationFindsAnswer(cal, Probe(FullMoonFinder.IsMoonBefore, daysAt, trig),
                             dayBefore, dayAfter, WINDOW_MILLIS);
  }

  /**
   * `findNewMoonFollowing`: the same triangulated search with the new-moon
   * finder's predicate (whose implementation is a parameter here).
   */
  method FindNewMoonFollowing(cal: int, newMoonIsBefore: (real, real) -> bool, daysAt: int -> real, trig: Trig,
                              dayBefore: int, dayAfter: int)
    returns (r: Option<int>)
    requires dayAfter >= 30_000
    ensures r == FirstAnswerAfter(cal, Probe(newMoonIsBefore, daysAt, trig), dayBefore, dayAfter, WINDOW_MILLIS)
    ensures r.Some? && cal < r.value && r.value % MILLIS_PER_MINUTE == 0
  {
    r := FindFirstAnswerAfter(cal, Probe(newMoonIsBefore, daysAt, trig), dayBefore, dayAfter, WINDOW_MILLIS);
    TriangulationFindsAnswer(cal, Probe(newMoonIsBefore, daysAt, trig), dayBefore, dayAfter, WINDOW_MILLIS);
  }
}

=== FILE: moon_position.dfy ===
/**
 * The Moon's true orbital longitude: its mean longitude and mean anomaly,
 * corrected for evection, the annual equation, the equation of centre and the
 * variation, using the Sun's position at the same instant.
 */
module MoonPosition {
  import opened BaseUtils
  import SunPosition

  const EPOCH: real := 2447891.5
  const MEAN_LONGITUDE_AT_EPOCH: real := 318.351648
  const MEAN_LONGITUDE_OF_PERIGEE_AT_EPOCH: real := 36.340410

  /** l: 13.1763966 degrees per day from 318.351648 at the epoch, reduced into [0, 360). */
  function ComputeMeanLongitude(daysSince: real): (l: real)
    ensures 0.0 <= l < 360.0
    ensures IsInteger((l - (13.1763966 * daysSince + MEAN_LONGITUDE_AT_EPOCH)) / 360.0)
  {
    AdjustTo360Range(13.1763966 * daysSince + MEAN_LONGITUDE_AT_EPOCH)
  }

  /** Mm: the mean longitude less the perigee's motion (0.1114041 degrees per day from 36.340410), reduced. */
  function ComputeMeanAnomaly(daysSince: real, moonMeanLongitude: real): (m: real)
    ensures 0.0 <= m < 360.0
    ensures IsInteger((m - (moonMeanLongitude - 0.1114041 * daysSince - MEAN_LONGITUDE_OF_PERIGEE_AT_EPOCH)) / 360.0)
  {
    AdjustTo360Range(moonMeanLongitude - 0.1114041 * daysSince - MEAN_LONGITUDE_OF_PERIGEE_AT_EPOCH)
  }

  /**
   * Because both reductions only drop whole turns, the mean anomaly advances
   * 13.0649925 degrees per day from 282.011238 at the epoch, modulo 360.
   */
  lemma MeanAnomalyMotion(daysSince: real)
    ensures var m := ComputeMeanAnomaly(daysSince, ComputeMeanLongitude(daysSince));
      IsInteger((m - (13.0649925 * daysSince + 282.011238)) / 360.0)
  {
    var l := ComputeMeanLongitude(daysSince);
    var m := ComputeMeanAnomaly(daysSince, l);
    var lin := 13.1763966 * daysSince + MEAN_LONGITUDE_AT_EPOCH;
    assert IsInteger((m - (l - 0.1114041 * daysSince - MEAN_LONGITUDE_OF_PERIGEE_AT_EPOCH)) / 360.0);
    assert (l - 0.1114041 * daysSince - MEAN_LONGITUDE_OF_PERIGEE_AT_EPOCH) - (13.0649925 * daysSince + 282.011238)
        == l - lin;
    WholeTurnsCompose(13.0649925 * daysSince + 282.011238,
                      l - 0.1114041 * daysSince - MEAN_LONGITUDE_OF_PERIGEE_AT_EPOCH,
                      m);
  }

  /** The four inputs of the corrections and the correction terms derived from them. */
  datatype MoonCorrections = MoonCorrections(moonMeanLongitude: real, moonMeanAnomaly: real,
                                             sunLongitude: real, sunMeanAnomaly: real)
  {
    /** Ev (getEvictionCorrection): 1.2739 sin(2C - Mm) with C = l - lambda_sun. */
    function EvectionCorrection(trig: Trig): (ev: real)
      ensures Bounded(trig) ==> -1.2739 <= ev <= 1.2739
    {
      var c := moonMeanLongitude - sunLongitude;
      1.2739 * trig.sinDeg(2.0 * c - moonMeanAnomaly)
    }

    /** Ae: 0.1858 sin M_sun. */
    function AnnualEquationCorrection(trig: Trig): (ae: real)
      ensures Bounded(trig) ==> -0.1858 <= ae <= 0.1858
    {
      0.1858 * trig.sinDeg(sunMeanAnomaly)
    }

    /** A3: 0.37 sin M_sun. */
    function UnnamedThirdCorrection(trig: Trig): (a3: real)
      ensures Bounded(trig) ==> -0.37 <= a3 <= 0.37
    {
      0.37 * trig.sinDeg(sunMeanAnomaly)
    }

    /** M'm: Mm + Ev - Ae - A3, within 1.8297 degrees of the mean anomaly. */
    function MoonCorrectedAnomaly(trig: Trig): (a: real)
      ensures Bounded(trig) ==> -1.8297 <= a - moonMeanAnomaly <= 1.8297
    {
      moonMeanAnomaly + EvectionCorrection(trig) - AnnualEquationCorrection(trig) - UnnamedThirdCorrection(trig)
    }

    /** Ec: 6.2886 sin M'm. */
    function CorrectionForEquationCentre(trig: Trig): (ec: real)
      ensures Bounded(trig) ==> -6.2886 <= ec <= 6.2886
    {
      6.2886 * trig.sinDeg(MoonCorrectedAnomaly(trig))
    }

    /** A4: 0.214 sin 2M'm. */
    function YetAnotherCorrectionTerm(trig: Trig): (a4: real)
      ensures Bounded(trig) ==> -0.214 <= a4 <= 0.214
    {
      0.214 * trig.sinDeg(2.0 * MoonCorrectedAnomaly(trig))
    }

    /** l': l + Ev + Ec - Ae + A4, within 7.9623 degrees of the mean longitude. */
    function CorrectedLongitude(trig: Trig): (lc: real)
      ensures Bounded(trig) ==> -7.9623 <= lc - moonMeanLongitude <= 7.9623
    {
      moonMeanLongitude + EvectionCorrection(trig) + CorrectionForEquationCentre(trig)
        - AnnualEquationCorrection(trig) + YetAnotherCorrectionTerm(trig)
    }

    /** V: 0.6583 sin 2(l' - lambda_sun). */
    function VariationCorrection(trig: Trig): (v: real)
      ensures Bounded(trig) ==> -0.6583 <= v <= 0.6583
    {
      0.6583 * trig.sinDeg(2.0 * (CorrectedLongitude(trig) - sunLongitude))
    }
  }

  /**
   * The constructor's true longitude l'' = l' - V, built from the Sun's position
   * at the same instant. It lies within 8.6206 degrees of the mean longitude and
   * is not reduced again, so it ranges over [-8.6206, 368.6206).
   */
  function TrueLongitude(daysSince: real, trig: Trig): (lon: real)
    ensures Bounded(trig) ==> -8.6206 <= lon - ComputeMeanLongitude(daysSince) <= 8.6206
    ensures Bounded(trig) ==> -8.6206 <= lon < 368.6206
  {
    var moonMeanLongitude := ComputeMeanLongitude(daysSince);
    var moonMeanAnomaly := ComputeMeanAnomaly(daysSince, moonMeanLongitude);
    var sunPos := SunPosition.PositionAt(daysSince, trig);
    var corrections := MoonCorrections(moonMeanLongitude, moonMeanAnomaly,
                                       sunPos.eclipticLongitude, sunPos.meanAnomaly);
    corrections.CorrectedLongitude(trig) - corrections.VariationCorrection(trig)
  }

  /** The Sun enters the corrections only through Ev and V (its longitude) and Ae, A3 (its mean anomaly). */
  lemma SunAnomalyTermsIgnoreLongitudes(c: MoonCorrections, d: MoonCorrections, trig: Trig)
    requires c.sunMeanAnomaly == d.sunMeanAnomaly
    ensures c.AnnualEquationCorrection(trig) == d.AnnualEquationCorrection(trig)
    ensures c.UnnamedThirdCorrection(trig) == d.UnnamedThirdCorrection(trig)
    ensures c.AnnualEquationCorrection(trig) * 0.37 == c.UnnamedThirdCorrection(trig) * 0.1858
  {
  }

  /** With every sine zero no correction applies: the true longitude is the mean longitude. */
  lemma NoCorrectionWithoutSine(daysSince: real, trig: Trig)
    requires forall x :: trig.sinDeg(x) == 0.0
    ensures TrueLongitude(daysSince, trig) == ComputeMeanLongitude(daysSince)
  {
  }
}

=== FILE: new_moon_checker.dfy ===
/**
 * The new-moon checks: a very small moon angle and a very small visible
 * percentage, both strict comparisons against 0.01.
 */
module NewMoonChecker {

  const VERY_SMALL_ANGLE: real := 0.01
  const VERY_SMALL_PERCENT: real := 0.01

  /** A new moon is at a very small angle. */
  function IsCorrectAngle(d: real): (ok: bool)
    ensures ok <==> d < 0.01
  {
    d < VERY_SMALL_ANGLE
  }

  /** A new moon shows a very small percentage. */
  function IsCorrectPercent(d: real): (ok: bool)
    ensures ok <==> d < 0.01
  {
    d < VERY_SMALL_PERCENT
  }

  /** The threshold itself is rejected by both checks. */
  lemma ThresholdRejected()
    ensures !IsCorrectAngle(0.01) && !IsCorrectPercent(0.01)
  {
  }

  /** Both checks are downward closed. */
  lemma DownwardClosed(d: real, e: real)
    requires e <= d
    ensures IsCorrectAngle(d) ==> IsCorrectAngle(e)
    ensures IsCorrectPercent(d) ==> IsCorrectPercent(e)
  {
  }
}

=== FILE: phase_search.dfy ===
/**
 * The phase search engine shared by every revision of the moon phase finder.
 *
 * Instants are epoch milliseconds. A search asks a predicate "is the moon still
 * before the phase?" at trial instants `cal + middle`, bisecting the offset
 * `middle` over a window [0, W] until the bracket is at most 500 ms wide; the
 * instant last probed is rounded to the nearest whole minute. The triangulated
 * search runs that from the day before, the instant itself and the day after,
 * sorts the three answers and keeps the earliest one strictly after the instant.
 */
module PhaseSearch {

  datatype Option<T> = None | Some(value: T)

  const MILLIS_PER_MINUTE: int := 60_000
  const MILLIS_PER_HOUR: int := 3_600_000
  const MILLIS_PER_DAY: int := 86_400_000

  /** The tuned window: 31 days, 5 hours and 49 minutes, longer than any synodic month. */
  const WINDOW_MILLIS: int := 31 * 24 * 60 * 60 * 1000 + 5 * 60 * 60 * 1000 + 49 * 60 * 1000

  /** The bisection stops once the bracket is this many milliseconds wide or narrower. */
  const CONVERGED_WIDTH: int := 500

  // ---------------------------------------------------------------------------
  // Bisection

  /** The loop state: the offsets bracketing the flip and the instant probed last. */
  datatype Bracket = Bracket(start: int, end: int, middleCal: int)

  predicate Converged(b: Bracket) {
    !(CONVERGED_WIDTH < b.end - b.start)
  }

  function Initial(cal: int, window: int): Bracket {
    Bracket(0, window, cal)
  }

  /** One loop iteration: probe the midpoint and keep the half in which the predicate flips. */
  function Halve(cal: int, isBefore: int -> bool, b: Bracket): (h: Bracket)
    requires !Converged(b)
    ensures b.start <= h.start < h.end <= b.end
    ensures h.end - h.start <= b.end - b.start - 250
    ensures b.end - b.start - 1 <= 2 * (h.end - h.start) <= b.end - b.start + 1
    ensures h.middleCal == cal + h.start || h.middleCal == cal + h.end
  {
    var middle := b.start + (b.end - b.start) / 2;
    if isBefore(cal + middle) then Bracket(b.start, middle, cal + middle)
    else Bracket(middle, b.end, cal + middle)
  }

  /** The loop run to completion. */
  function Bisect(cal: int, isBefore: int -> bool, b: Bracket): (r: Bracket)
    ensures Converged(r)
    ensures b.start <= b.end ==> b.start <= r.start <= r.end <= b.end
    decreases b.end - b.start
  {
    if Converged(b) then b else Bisect(cal, isBefore, Halve(cal, isBefore, b))
  }

  /** The instant `findDatePassingBounds` returns: the last one probed, or `cal` if nothing was probed. */
  function DatePassingBounds(cal: int, isBefore: int -> bool, window: int): int {
    Bisect(cal, isBefore, Initial(cal, window)).middleCal
  }

  /** The final bracket of a search from `cal` over [0, window]. */
  function FinalBracket(cal: int, isBefore: int -> bool, window: int): Bracket {
    Bisect(cal, isBefore, Initial(cal, window))
  }

  /**
   * The loop invariant: the bracket lies in [0, window]; the predicate held at
   * its end unless that is the window's end, and failed at its start unless
   * that is 0; and the instant last probed is one of its two ends, at least
   * 250 ms into the window and before its end (unless nothing was probed yet).
   */
  predicate Bracketed(cal: int, isBefore: int -> bool, window: int, b: Bracket) {
    && 0 <= b.start < b.end <= window
    && (b.end == window || isBefore(cal + b.end))
    && (b.start == 0 || !isBefore(cal + b.start))
    && (b == Initial(cal, window) || Probed(cal, window, b))
  }

  predicate Probed(cal: int, window: int, b: Bracket) {
    && 250 <= b.middleCal - cal < window
    && (b.middleCal == cal + b.start || b.middleCal == cal + b.end)
  }

  lemma HalveKeepsBracket(cal: int, isBefore: int -> bool, window: int, b: Bracket)
    requires Bracketed(cal, isBefore, window, b) && !Converged(b)
    ensures Bracketed(cal, isBefore, window, Halve(cal, isBefore, b))
    ensures Probed(cal, window, Halve(cal, isBefore, b))
  {
  }

  lemma {:induction false} BisectKeepsBracket(cal: int, isBefore: int -> bool, window: int, b: Bracket)
    requires Bracketed(cal, isBefore, window, b)
    ensures Bracketed(cal, isBefore, window, Bisect(cal, isBefore, b))
    ensures !Converged(b) ==> Probed(cal, window, Bisect(cal, isBefore, b))
    decreases b.end - b.start
  {
    if !Converged(b) {
      var h := Halve(cal, isBefore, b);
      HalveKeepsBracket(cal, isBefore, window, b);
      BisectKeepsBracket(cal, isBefore, window, h);
      if !Converged(h) {
      } else {
        assert Bisect(cal, isBefore, h) == h;
      }
    }
  }

  /**
   * What a search guarantees. A window of 500 ms or less is never probed and
   * `cal` is returned. Otherwise the result lies in [cal + 250, cal + window),
   * is one end of a final bracket at most 500 ms wide, and the predicate is
   * false at the bracket's start (unless it is 0) and true at its end (unless
   * it is the window's end).
   */
  lemma DatePassingBoundsSpec(cal: int, isBefore: int -> bool, window: int)
    ensures window <= CONVERGED_WIDTH ==> DatePassingBounds(cal, isBefore, window) == cal
    ensures window > CONVERGED_WIDTH ==>
      var found, b := DatePassingBounds(cal, isBefore, window), FinalBracket(cal, isBefore, window);
      && cal + 250 <= found < cal + window
      && (found == cal + b.start || found == cal + b.end)
      && 0 <= b.start < b.end <= window && b.end - b.start <= CONVERGED_WIDTH
      && (b.end == window || isBefore(cal + b.end))
      && (b.start == 0 || !isBefore(cal + b.start))
  {
    if window > CONVERGED_WIDTH {
      BisectKeepsBracket(cal, isBefore, window, Initial(cal, window));
    }
  }

  /** The bisection loop as the source writes it, updating `start`, `end` and `middleCal`. */
  method FindDatePassingBounds(cal: int, isBefore: int -> bool, window: int) returns (found: int)
    ensures found == DatePassingBounds(cal, isBefore, window)
    ensures window <= CONVERGED_WIDTH ==> found == cal
    ensures window > CONVERGED_WIDTH ==> cal + 250 <= found < cal + window
  {
    var start, end := 0, window;
    var middleCal := cal;
    while CONVERGED_WIDTH < end - start
      invariant Bisect(cal, isBefore, Bracket(start, end, middleCal)) == FinalBracket(cal, isBefore, window)
      decreases end - start
    {
      ghost var next := Halve(cal, isBefore, Bracket(start, end, middleCal));
      var middle := start + (end - start) / 2;
      middleCal := cal + middle;
      if isBefore(middleCal) {
        end := middle;
      } else {
        start := middle;
      }
      assert Bracket(start, end, middleCal) == next;
    }
    found := middleCal;
    DatePassingBoundsSpec(cal, isBefore, window);
  }

  /**
   * A predicate that always answers "before" drives `end` down to the bracket's
   * start: the last instant probed is 250 to 500 ms after `cal`.
   */
  lemma {:induction false} AlwaysBeforeEndsEarly(cal: int, isBefore: int -> bool, b: Bracket)
    requires forall t :: isBefore(t)
    requires b.start == 0 && !Converged(b)
    ensures 250 <= Bisect(cal, isBefore, b).middleCal - cal <= CONVERGED_WIDTH
    decreases b.end - b.start
  {
    var h := Halve(cal, isBefore, b);
    assert h == Bracket(0, b.end / 2, cal + b.end / 2);
    if Converged(h) {
      assert Bisect(cal, isBefore, b) == h;
    } else {
      AlwaysBeforeEndsEarly(cal, isBefore, h);
    }
  }

  /**
   * Without triangulation the rounded answer need not be after `cal`: from a
   * whole minute, a predicate that always answers "before" gives `cal` back.
   */
  lemma AlwaysBeforeReturnsInput(cal: int, isBefore: int -> bool)
    requires cal % MILLIS_PER_MINUTE == 0
    requires forall t :: isBefore(t)
    ensures RoundedDatePassingBounds(cal, isBefore, WINDOW_MILLIS) == cal
  {
    AlwaysBeforeEndsEarly(cal, isBefore, Initial(cal, WINDOW_MILLIS));
    var found := DatePassingBounds(cal, isBefore, WINDOW_MILLIS);
    var q := cal / MILLIS_PER_MINUTE;
    assert found == q * 60_000 + (found - cal);
    assert found / 1000 == q * 60;
    assert SecondOfMinute(found) == 0;
    assert MilliOfSecond(found) == found - cal;
  }

  // ---------------------------------------------------------------------------
  // Number of halvings

  function Pow2(k: nat): (p: nat)
    ensures p >= 1
  {
    if k == 0 then 1 else 2 * Pow2(k - 1)
  }

  /** How many times the loop body runs from bracket `b`. */
  function Halvings(cal: int, isBefore: int -> bool, b: Bracket): nat
    decreases b.end - b.start
  {
    if Converged(b) then 0 else 1 + Halvings(cal, isBefore, Halve(cal, isBefore, b))
  }

  /** Each halving at least halves the width, so k halvings need a width above 500 * 2^(k-1). */
  lemma {:induction false} HalvingsBound(cal: int, isBefore: int -> bool, b: Bracket)
    ensures Halvings(cal, isBefore, b) > 0 ==> 500 * Pow2(Halvings(cal, isBefore, b) - 1) < b.end - b.start
    decreases b.end - b.start
  {
    if !Converged(b) {
      var h := Halve(cal, isBefore, b);
      HalvingsBound(cal, isBefore, h);
      var k := Halvings(cal, isBefore, h);
      if k > 0 {
        assert Pow2(k) == 2 * Pow2(k - 1);
      }
    }
  }

  lemma {:induction false} Pow2Monotone(j: nat, k: nat)
    requires j <= k
    ensures Pow2(j) <= Pow2(k)
    decreases k
  {
    if j < k {
      Pow2Monotone(j, k - 1);
    }
  }

  /** Over the tuned window the loop runs at most 23 times, whatever the predicate answers. */
  lemma AtMost23Halvings(cal: int, isBefore: int -> bool)
    ensures Halvings(cal, isBefore, Initial(cal, WINDOW_MILLIS)) <= 23
  {
    var k := Halvings(cal, isBefore, Initial(cal, WINDOW_MILLIS));
    HalvingsBound(cal, isBefore, Initial(cal, WINDOW_MILLIS));
    if k > 23 {
      Pow2Monotone(23, k - 1);
      Pow2Of23();
    }
  }

  lemma Pow2Of23()
    ensures Pow2(23) == 8_388_608
  {
    assert Pow2(1) == 2;   assert Pow2(2) == 4;   assert Pow2(3) == 8;   assert Pow2(4) == 16;
    assert Pow2(5) == 32;  assert Pow2(6) == 64;  assert Pow2(7) == 128; assert Pow2(8) == 256;
    assert Pow2(9) == 512; assert Pow2(10) == 1024; assert Pow2(11) == 2048; assert Pow2(12) == 4096;
    assert Pow2(13) == 8192; assert Pow2(14) == 16384; assert Pow2(15) == 32768; assert Pow2(16) == 65536;
    assert Pow2(17) == 131072; assert Pow2(18) == 262144; assert Pow2(19) == 524288;
    assert Pow2(20) == 1048576; assert Pow2(21) == 2097152; assert Pow2(22) == 4194304;
  }

  // ---------------------------------------------------------------------------
  // Rounding to the minute

  /** The seconds field of an instant (in any zone whose offset is a whole number of minutes). */
  function SecondOfMinute(t: int): int {
    (t / 1000) % 60
  }

  /** The milliseconds field of an instant. */
  function MilliOfSecond(t: int): int {
    t % 1000
  }

  /**
   * `_findRoundedDatePassingBounds`' rounding: a whole minute; seconds below 30
   * round down and the rest round up, so the change is in [-29999, +30000] ms.
   */
  function RoundToMinute(found: int): (r: int)
    ensures r % MILLIS_PER_MINUTE == 0
    ensures -29_999 <= r - found <= 30_000
    ensures SecondOfMinute(found) < 30 ==> r <= found
    ensures SecondOfMinute(found) >= 30 ==> r > found
  {
    var seconds := SecondOfMinute(found);
    var secondsChange := if seconds < 30 then seconds else -1 * (60 - seconds);
    var r := found - secondsChange * 1000 - MilliOfSecond(found);
    assert found == (found / 60_000) * 60_000 + seconds * 1000 + MilliOfSecond(found);
    assert r == (found / 60_000) * 60_000 + (if seconds < 30 then 0 else 60_000);
    r
  }

  /** The rounded instant is a nearest whole minute. */
  lemma RoundToMinuteIsNearest(found: int, minute: int)
    requires minute % MILLIS_PER_MINUTE == 0
    ensures var r := RoundToMinute(found);
            (if r >= found then r - found else found - r) <= (if minute >= found then minute - found else found - minute)
  {
    var r := RoundToMinute(found);
    var q := found / 60_000;
    assert r == q * 60_000 || r == q * 60_000 + 60_000;
    var m := minute / 60_000;
    assert minute == m * 60_000;
    if m <= q {
      assert minute <= q * 60_000 <= found;
    } else {
      assert minute >= q * 60_000 + 60_000 > found;
    }
  }

  /** A whole minute is returned unchanged, so rounding twice is rounding once. */
  lemma RoundToMinuteWholeMinute(found: int)
    ensures found % MILLIS_PER_MINUTE == 0 ==> RoundToMinute(found) == found
    ensures RoundToMinute(RoundToMinute(found)) == RoundToMinute(found)
  {
    var r := RoundToMinute(found);
    assert SecondOfMinute(r) == 0 && MilliOfSecond(r) == 0 by {
      assert r == (r / 60_000) * 60_000;
      assert r / 1000 == (r / 60_000) * 60;
    }
    if found % MILLIS_PER_MINUTE == 0 {
      assert found / 1000 == (found / 60_000) * 60;
    }
  }

  /** The instant `_findRoundedDatePassingBounds` returns. */
  function RoundedDatePassingBounds(cal: int, isBefore: int -> bool, window: int): int {
    RoundToMinute(DatePassingBounds(cal, isBefore, window))
  }

  /**
   * The rounded answer is a whole minute no earlier than `cal - 29999` ms; when
   * the window is probed at all it is no earlier than `cal - 29749` ms and
   * earlier than `cal + window + 30000` ms.
   */
  lemma RoundedDatePassingBoundsRange(cal: int, isBefore: int -> bool, window: int)
    ensures var r := RoundedDatePassingBounds(cal, isBefore, window);
      && r % MILLIS_PER_MINUTE == 0
      && cal - 29_999 <= r
      && (window <= CONVERGED_WIDTH ==> r == RoundToMinute(cal))
      && (window > CONVERGED_WIDTH ==> cal + 250 - 29_999 <= r < cal + window + 30_000)
  {
    DatePassingBoundsSpec(cal, isBefore, window);
  }

  method FindRoundedDatePassingBounds(cal: int, isBefore: int -> bool, window: int) returns (r: int)
    ensures r == RoundedDatePassingBounds(cal, isBefore, window)
    ensures r % MILLIS_PER_MINUTE == 0 && cal - 29_999 <= r
  {
    var found := FindDatePassingBounds(cal, isBefore, window);
    r := RoundToMinute(found);
    RoundedDatePassingBoundsRange(cal, isBefore, window);
  }

  // ---------------------------------------------------------------------------
  // Triangulation

  /** The earliest candidate strictly after `cal`, if there is one. */
  function EarliestAfter(cal: int, candidates: seq<int>): Option<int>
  {
    if candidates == [] then None
    else
      var rest := EarliestAfter(cal, candidates[1..]);
      if cal < candidates[0] && (rest.None? || candidates[0] <= rest.value) then Some(candidates[0])
      else rest
  }

  /** EarliestAfter finds a candidate exactly when one is after `cal`, and then it is the least such. */
  lemma {:induction false} EarliestAfterSpec(cal: int, candidates: seq<int>)
    ensures EarliestAfter(cal, candidates).None? <==> forall c :: c in candidates ==> c <= cal
    ensures EarliestAfter(cal, candidates).Some? ==>
      var d := EarliestAfter(cal, candidates).value;
      d in candidates && cal < d && forall c :: c in candidates && cal < c ==> d <= c
  {
    if candidates != [] {
      var rest := EarliestAfter(cal, candidates[1..]);
      EarliestAfterSpec(cal, candidates[1..]);
      assert forall c :: c in candidates <==> c == candidates[0] || c in candidates[1..];
      if cal < candidates[0] {
        assert candidates[0] in candidates;
        assert EarliestAfter(cal, candidates).Some?;
      } else {
        assert EarliestAfter(cal, candidates) == rest;
      }
    }
  }

  /** The least candidate after `cal` is what EarliestAfter returns, whatever the order of the candidates. */
  lemma EarliestAfterIs(cal: int, candidates: seq<int>, d: int)
    requires d in candidates && cal < d
    requires forall c :: c in candidates && cal < c ==> d <= c
    ensures EarliestAfter(cal, candidates) == Some(d)
  {
    EarliestAfterSpec(cal, candidates);
  }

  /** The three candidate answers, searched from the day before, the instant itself and the day after. */
  function Candidates(cal: int, isBefore: int -> bool, dayBefore: int, dayAfter: int, window: int): seq<int> {
    [ RoundedDatePassingBounds(cal - dayBefore, isBefore, window),
      RoundedDatePassingBounds(cal, isBefore, window),
      RoundedDatePassingBounds(cal + dayAfter, isBefore, window) ]
  }

  /** What `_findFirstAnswerAfter` returns; None stands for its IllegalStateException. */
  function FirstAnswerAfter(cal: int, isBefore: int -> bool, dayBefore: int, dayAfter: int, window: int): Option<int> {
    EarliestAfter(cal, Candidates(cal, isBefore, dayBefore, dayAfter, window))
  }

  /**
   * The exception is unreachable once the later anchor is at least 30 s after
   * `cal` (one calendar day later, whatever its length in the zone, is far
   * more than that): its answer is at most 29999 ms
   * before its anchor. The answer is then a whole minute strictly after `cal`,
   * one of the three candidates, and the earliest candidate after `cal`.
   */
  lemma TriangulationFindsAnswer(cal: int, isBefore: int -> bool, dayBefore: int, dayAfter: int, window: int)
    requires dayAfter >= 30_000
    ensures var r, cs := FirstAnswerAfter(cal, isBefore, dayBefore, dayAfter, window),
                         Candidates(cal, isBefore, dayBefore, dayAfter, window);
      && r.Some?
      && cal < r.value && r.value in cs && r.value % MILLIS_PER_MINUTE == 0
      && (forall c :: c in cs && cal < c ==> r.value <= c)
  {
    var cs := Candidates(cal, isBefore, dayBefore, dayAfter, window);
    RoundedDatePassingBoundsRange(cal - dayBefore, isBefore, window);
    RoundedDatePassingBoundsRange(cal, isBefore, window);
    RoundedDatePassingBoundsRange(cal + dayAfter, isBefore, window);
    assert cal < cs[2] && cs[2] in cs;
    EarliestAfterSpec(cal, cs);
  }

  predicate Sorted(s: seq<int>) {
    forall i, j :: 0 <= i < j < |s| ==> s[i] <= s[j]
  }

  /** One compare-and-exchange: puts the smaller of `a[i]`, `a[j]` first and touches nothing else. */
  method CompareAndSwap(a: array<int>, i: int, j: int)
    requires 0 <= i < j < a.Length
    modifies a
    ensures a[i] <= a[j]
    ensures (a[i], a[j]) == (old(a[i]), old(a[j])) || (a[i], a[j]) == (old(a[j]), old(a[i]))
    ensures forall k :: 0 <= k < a.Length && k != i && k != j ==> a[k] == old(a[k])
    ensures multiset(a[..]) == old(multiset(a[..]))
  {
    if a[i] > a[j] {
      a[i], a[j] := a[j], a[i];
    }
  }

  /** Sorts the three candidates in place (`Collections.sort` on a list of three instants). */
  method SortCandidates(a: array<int>)
    requires a.Length == 3
    modifies a
    ensures Sorted(a[..])
    ensures multiset(a[..]) == old(multiset(a[..]))
  {
    CompareAndSwap(a, 0, 1);
    CompareAndSwap(a, 1, 2);
    CompareAndSwap(a, 0, 1);
  }

  /** Scanning a sorted permutation of the candidates finds EarliestAfter's answer. */
  lemma SortedScanFinds(cal: int, candidates: seq<int>, sorted: seq<int>, i: int)
    requires multiset(sorted) == multiset(candidates) && Sorted(sorted)
    requires 0 <= i < |sorted| && cal < sorted[i]
    requires forall j :: 0 <= j < i ==> sorted[j] <= cal
    ensures EarliestAfter(cal, candidates) == Some(sorted[i])
  {
    assert sorted[i] in multiset(candidates);
    forall c | c in candidates && cal < c
      ensures sorted[i] <= c
    {
      assert c in multiset(sorted);
      var j :| 0 <= j < |sorted| && sorted[j] == c;
    }
    EarliestAfterIs(cal, candidates, sorted[i]);
  }

  /** When no sorted candidate is after `cal`, EarliestAfter has no answer. */
  lemma SortedScanFindsNothing(cal: int, candidates: seq<int>, sorted: seq<int>)
    requires multiset(sorted) == multiset(candidates)
    requires forall j :: 0 <= j < |sorted| ==> sorted[j] <= cal
    ensures EarliestAfter(cal, candidates) == None
  {
    forall c | c in candidates
      ensures c <= cal
    {
      assert c in multiset(sorted);
      var j :| 0 <= j < |sorted| && sorted[j] == c;
    }
    EarliestAfterSpec(cal, candidates);
  }

  /** Sorts the candidates in place and scans them for the first one after `cal`. */
  method EarliestCandidateAfter(cal: int, answer1: int, answer2: int, answer3: int) returns (r: Option<int>)
    ensures r == EarliestAfter(cal, [answer1, answer2, answer3])
  {
    ghost var candidates := [answer1, answer2, answer3];
    var sortedCandidates := new int[3];
    sortedCandidates[0], sortedCandidates[1], sortedCandidates[2] := answer1, answer2, answer3;
    assert sortedCandidates[..] == candidates;
    SortCandidates(sortedCandidates);
    ghost var sorted := sortedCandidates[..];
    assert multiset(sorted) == multiset(candidates) && Sorted(sorted);

    for i := 0 to 3
      invariant forall j :: 0 <= j < i ==> sorted[j] <= cal
    {
      if cal < sortedCandidates[i] {
        r := Some(sortedCandidates[i]);
        SortedScanFinds(cal, candidates, sorted, i);
        return;
      }
    }
    r := None;
    SortedScanFindsNothing(cal, candidates, sorted);
  }

  /** `_findFirstAnswerAfter`: three searches, a sort, and a scan for the first answer after `cal`. */
  method FindFirstAnswerAfter(cal: int, isBefore: int -> bool, dayBefore: int, dayAfter: int, window: int)
    returns (r: Option<int>)
    ensures r == FirstAnswerAfter(cal, isBefore, dayBefore, dayAfter, window)
  {
    var answer1 := FindRoundedDatePassingBounds(cal - dayBefore, isBefore, window);
    var answer2 := FindRoundedDatePassingBounds(cal, isBefore, window);
    var answer3 := FindRoundedDatePassingBounds(cal + dayAfter, isBefore, window);
    r := EarliestCandidateAfter(cal, answer1, answer2, answer3);
  }
}

=== FILE: sun_position.dfy ===
/**
 * The Sun's position on the ecliptic: its mean anomaly and its geocentric
 * ecliptic longitude, from the number of days since the epoch 1990 January 0.0.
 */
module SunPosition {
  import opened BaseUtils
  import JulianDate

  const EPOCH: real := 2447891.5
  const ECLIPTIC_LONGITUDE_OF_PERIGEE: real := 282.768422
  const ECLIPTIC_LONGITUDE_AT_EPOCH_1990: real := 279.403303
  const ECCENTRICITY_OF_ORBIT: real := 0.016713
  /** `Math.PI` */
  const PI: real := 3.141592653589793

  /** The two values the position keeps. */
  datatype Position = Position(meanAnomaly: real, eclipticLongitude: real)

  /** N: the mean Sun's motion since the epoch (360 degrees per tropical year), taken modulo 360. */
  function MeanMotionAngle(daysSince: real): (n: real)
    ensures 0.0 <= n < 360.0
    ensures IsInteger((360.0 / 365.242191 * daysSince - n) / 360.0)
  {
    var x := 360.0 / 365.242191 * daysSince;
    var n := JavaRemainder360(x);
    if n < 0.0 then
      assert (x - (n + 360.0)) / 360.0 == (x - n) / 360.0 - 1.0;
      WholeIsInteger(((x - n) / 360.0).Floor - 1);
      n + 360.0
    else n
  }

  /** The truncating remainder followed by the sign fix-up is exactly the floor reduction into [0, 360). */
  lemma MeanMotionIsReduced(daysSince: real)
    ensures MeanMotionAngle(daysSince) == AdjustTo360Range(360.0 / 365.242191 * daysSince)
  {
    var x := 360.0 / 365.242191 * daysSince;
    var n := MeanMotionAngle(daysSince);
    assert (n - x) / 360.0 == -((x - n) / 360.0);
    WholeIsInteger(-((x - n) / 360.0).Floor);
    AdjustTo360RangeUnique(x, n);
  }

  /** M: the mean anomaly, N shifted from the longitude at epoch to the perigee, kept in [0, 360). */
  function ComputeMeanAnomaly(n: real): (m: real)
    ensures 0.0 <= n < 360.0 ==> 0.0 <= m < 360.0
    ensures 0.0 <= n < 360.0 ==>
      m == AdjustTo360Range(n + ECLIPTIC_LONGITUDE_AT_EPOCH_1990 - ECLIPTIC_LONGITUDE_OF_PERIGEE)
  {
    var someMean := n + ECLIPTIC_LONGITUDE_AT_EPOCH_1990 - ECLIPTIC_LONGITUDE_OF_PERIGEE;
    SingleWrapReduces(someMean);
    if someMean < 0.0 then someMean + 360.0 else someMean
  }

  /** Ec: the equation of centre, (360 / pi) e sin M, at most 1.9152 degrees either way. */
  function EquationOfCentre(meanAnomaly: real, trig: Trig): (ec: real)
    ensures Bounded(trig) ==> -1.9152 <= ec <= 1.9152
  {
    (360.0 / PI) * ECCENTRICITY_OF_ORBIT * trig.sinDeg(meanAnomaly)
  }

  /** lambda: N + Ec + the longitude at epoch, less one turn when above 360. */
  function ComputeGeoEclipticLongitude(n: real, meanAnomaly: real, trig: Trig): (l: real)
    ensures Bounded(trig) && 0.0 <= n < 360.0 ==> 0.0 < l <= 360.0
    ensures IsInteger((n + EquationOfCentre(meanAnomaly, trig) + ECLIPTIC_LONGITUDE_AT_EPOCH_1990 - l) / 360.0)
  {
    var preliminaryLongitude := n + EquationOfCentre(meanAnomaly, trig) + ECLIPTIC_LONGITUDE_AT_EPOCH_1990;
    var l := if preliminaryLongitude > 360.0 then preliminaryLongitude - 360.0 else preliminaryLongitude;
    assert (preliminaryLongitude - l) / 360.0 == (if preliminaryLongitude > 360.0 then 1 else 0) as real;
    WholeIsInteger(if preliminaryLongitude > 360.0 then 1 else 0);
    l
  }

  /** The constructor: the mean anomaly is computed first and the longitude's Ec reads it. */
  function PositionAt(daysSince: real, trig: Trig): (p: Position)
    ensures 0.0 <= p.meanAnomaly < 360.0
    ensures Bounded(trig) ==> 0.0 < p.eclipticLongitude <= 360.0
  {
    var n := MeanMotionAngle(daysSince);
    var meanAnomaly := ComputeMeanAnomaly(n);
    Position(meanAnomaly, ComputeGeoEclipticLongitude(n, meanAnomaly, trig))
  }

  /** The Sun's position for a UTC date-time. */
  function PositionOn(t: JulianDate.DateTime, trig: Trig): Position
    requires t.Valid()
  {
    PositionAt(ExactDaysSince(t, EPOCH), trig)
  }

  /**
   * The longitude is the mean anomaly plus the longitude of perigee plus the
   * equation of centre, modulo 360: true longitude = M + perigee + Ec.
   */
  lemma LongitudeIsAnomalyPlusPerigee(daysSince: real, trig: Trig)
    ensures var p := PositionAt(daysSince, trig);
      IsInteger((p.meanAnomaly + ECLIPTIC_LONGITUDE_OF_PERIGEE + EquationOfCentre(p.meanAnomaly, trig)
                 - p.eclipticLongitude) / 360.0)
  {
    var p := PositionAt(daysSince, trig);
    var n := MeanMotionAngle(daysSince);
    var ec := EquationOfCentre(p.meanAnomaly, trig);
    var shifted := n + ECLIPTIC_LONGITUDE_AT_EPOCH_1990 - ECLIPTIC_LONGITUDE_OF_PERIGEE;
    AdjustTo360RangeIdentity(0.0);
    assert IsInteger((p.meanAnomaly - shifted) / 360.0);
    assert IsInteger((n + ec + ECLIPTIC_LONGITUDE_AT_EPOCH_1990 - p.eclipticLongitude) / 360.0);
    assert (shifted + ECLIPTIC_LONGITUDE_OF_PERIGEE + ec) == n + ec + ECLIPTIC_LONGITUDE_AT_EPOCH_1990;
    WholeTurnsCompose(p.meanAnomaly + ECLIPTIC_LONGITUDE_OF_PERIGEE + ec,
                      shifted + ECLIPTIC_LONGITUDE_OF_PERIGEE + ec,
                      p.eclipticLongitude);
  }

  /**
   * The unit-test date 1980 July 27, 00:00 UTC (3444 days before the epoch):
   * the mean anomaly is 202.0653856..., within 0.05 of the book's 202.065386,
   * and with sin M within 0.01 of its value -0.37566 the longitude is within
   * 0.05 of the book's 124.114347.
   */
  lemma SampleDate1980(trig: Trig)
    ensures var p := PositionOn(JulianDate.DateTime(1980, 7, 27, 0, 0, 0, 0), trig);
      && 202.065386 - 0.05 <= p.meanAnomaly <= 202.065386 + 0.05
      && (-0.38566 <= trig.sinDeg(p.meanAnomaly) <= -0.36566 ==>
            124.114347 - 0.05 <= p.eclipticLongitude <= 124.114347 + 0.05)
  {
    var t := JulianDate.DateTime(1980, 7, 27, 0, 0, 0, 0);
    assert (365.243 * 1980.0).Floor == 723181;
    assert (30.6 * 8.0).Floor == 244;
    assert JulianDate.DayFraction(0, 0, 0) == 0.0;
    assert JulianDate.JulianDay(t) == 2444447.5;
    var x := 360.0 / 365.242191 * -3444.0;
    assert -10.0 < x / 360.0 < -9.0;
    assert (-(x / 360.0)).Floor == 9;
    assert JavaRemainder360(x) == x + 3240.0;
    assert MeanMotionAngle(-3444.0) == x + 3600.0;
  }
}
